=== FILE: README.md ===
# cols: package discovery, modelled in Dafny

`cols` is a fast replacement for `colcon list`. It reports the packages whose
`package.xml` parses and that sit either directly below a `--paths` entry, or
below a base path (`.` by default) reached only through directories that are
neither ignored nor packages themselves. It prints one line per distinct
`(name, path)` pair:

- the package name;
- the directory that holds the manifest;
- the build type (default `ros.catkin`).

This project models the discovery engine of `src/main.rs` as pure functions
over an immutable directory tree, and proves what that engine promises.

The parts modelled, one module each:

- `Packages`: manifest defaulting (`default_build_type`, `default_export`, and
  the `serde` defaults on `Package` and `Export`).
- `Classify`: the per-directory classifier `check_path` and its four outcomes.
- `Scanner`: the walk `find_packages`. It is written as a recursive function
  (`Walk`) and as loops that follow the source (`ScanDir`, `FindPackages`).
- `Discovery`: a declarative definition of which packages a walk must find,
  with soundness and completeness proofs for `Walk` against it.
- `Preprocess`: `preprocess_paths`, meaning dedup, then canonicalize (or keep
  the path as given), then dedup again.
- `Dedup` and `Aggregate`: the `sorted_unstable_by_key(name, path)` followed by
  `dedup_by(name, path)` at the end of `main`.
- `Listing`: the `list` command from arguments to printed lines. It checks each
  candidate path flat, scans the base paths recursively (or `.` when neither
  list is given), then sorts, de-duplicates and projects (`print_from_opts`).

Supporting modules:

- `Wrappers`: `Option` and `Result`.
- `Orders`: lexicographic order on sequences.
- `Paths`: paths as sequences of components with Rust's `Ord` on `PathBuf`,
  plus `file_name`, `join` and display text.
- `Tree`: the directory tree and routes into it.
- `Host`: the environment that stands in for the operating system.

The environment `Host.Env` gives three functions as parameters:

- `resolve`: what a path names;
- `canonicalize`: `Path::canonicalize`, which may fail;
- `parse`: the XML reader, which may fail.

A `Dir` node with `readable == false` is a directory whose `read_dir` fails.

Three behaviours of `find_packages` (`src/main.rs:119-130`) are easy to miss:

- `find_packages(dir, …)` classifies the entries listed under `dir`, never
  `dir` itself. A `--paths` candidate or a base path that is itself a
  package is therefore not reported. The reported packages are those directly
  below a candidate, and those below a base path reached only through
  directories that are neither ignored nor packages themselves.
- A `read_dir` failure is not skipped. It propagates through `?` and ends the
  whole command with that error (`Walk` returns `Failure`). Only directories
  the walk descends into are ever read.
- `is_dir` and `exists` follow symbolic links. There is no check that
  prevents descending through a link. The tree model has no links.

## Model

| member | source | states |
|---|---|---|
| Packages.ToPackage | src/main.rs:10-31 | The name is carried over. A missing `export`, or an `export` without `build_type`, gives `ros.catkin`. An explicit build type is kept verbatim. |
| Classify.CheckPath | src/main.rs:66-105 | Each outcome exactly characterises its case. `IsFile` iff not a directory. `Ignored` iff a directory with a dot-prefixed name or any of the three ignore markers. `Found` iff a directory that is neither, whose `package.xml` is a file that parses; the entry holds that package and the path. `Recurse` iff such a directory has no parseable manifest. |
| Classify.AddingMarkerIgnores | src/main.rs:83-88 | Adding any ignore marker to a directory makes it `Ignored`, whatever its manifest says. |
| Classify.UnparseableManifestRecurses | src/main.rs:90-104 | A missing manifest, one that is a directory, or one that does not parse is not an error. A directory that is neither dot-named nor marked is then descended into. |
| Scanner.ScanDir | src/main.rs:119-135 | The loop over `read_dir` entries computes exactly `Walk`. On success it only appends to `results`. A non-directory leaves `results` unchanged. |
| Scanner.FindPackages | src/main.rs:114-136 | `find_packages` appends exactly what `Find` yields and never removes anything. A path that is not a directory appends nothing and succeeds. |
| Scanner.FailurePersists | src/main.rs:123-134 | Once a child's walk fails, the directory's walk fails with that same error, whatever entries follow. |
| Discovery.WalkSound | src/main.rs:114-136 | Every entry the walk returns is discovered. It is the `Found` outcome at the end of a route whose intermediate directories are all `Recurse`, and the route has one step when `recurse` is off. |
| Discovery.WalkComplete | src/main.rs:114-136 | Every discovered package is in a successful walk's result. |
| Discovery.WalkFindsStrictDescendants | src/main.rs:123-130 | Every entry the walk returns lies strictly below the walked path. |
| Discovery.FlatWalkSeesOnlyEntries | src/main.rs:123-129 | Without `recurse`, every entry is an immediate child of the walked directory. |
| Discovery.FlatWalkFailsOnlyOnUnreadableDir | src/main.rs:119-123 | Without `recurse`, the walk fails if and only if the path is an unreadable directory. |
| Discovery.WalkSkipsStoppedSubtrees | src/main.rs:125-132 | In a tree with unique entry names, nothing below a directory classified `Found`, `Ignored` or `IsFile` is ever returned. |
| Discovery.WalkFailsIffBlocked | src/main.rs:119-132 | A recursive walk fails exactly when it reaches an unreadable directory: the walked node itself, or one reached only through `Recurse` directories. An unreadable directory below an ignored directory, a package or a file never causes an error. |
| Discovery.WalkFindsNoNestedPackages | src/main.rs:126-128 | In a tree with unique entry names, found packages never nest. When one entry's path is a prefix of another's, they are the same entry. |
| Discovery.FindFindsDescendants | src/main.rs:114-136 | Every entry `find_packages(dir, …)` appends lies strictly below `dir`, and exactly one level below when `recurse` is off. |
| Tree.LocatePrefixDeterminesRoute | src/main.rs:123-130 | With unique entry names, a located path determines the route that reaches it, so a prefix path means a prefix route. |
| Paths.FileName | src/main.rs:75-78 | `file_name` exists exactly when the last component is a normal name, and the path is its parent followed by that name. |
| Paths.Join | src/main.rs:85 | A joined path's `file_name` is the joined name, and it lies one level below the directory. |
| Paths.PathLessIsStrictTotal | src/main.rs:220 | The derived `Ord` on paths (lexicographic over components) is a strict total order. |
| Preprocess.PreprocessPaths | src/main.rs:190-197 | No two neighbours are equal. The output is empty iff the input is. Each output is the canonical form, or else the spelling, of some input. Every input's canonical form appears. |
| Preprocess.PreprocessKeepsFirstOfRuns | src/main.rs:190-197 | The result keeps input order. It is the canonical form of each input that starts a run of equal canonical forms, in input order, so each first occurrence of a run is kept. |
| Preprocess.FirstPassIsRedundant | src/main.rs:190-197 | The first `dedup` changes nothing. The result equals canonicalizing every input and then dropping adjacent repeats. |
| Preprocess.PreprocessIdempotent | src/main.rs:190-197 | When `canonicalize` is stable on its own results, preprocessing a preprocessed list returns it unchanged. |
| Dedup.DedupBy | src/main.rs:193-195 | `dedup` leaves no adjacent duplicates. It never lengthens the sequence, is empty iff the input is, keeps the last run's key, and keeps only input elements. |
| Dedup.DedupByIsRunHeads | src/main.rs:193-195 | `dedup` equals an independent filter. Position `i` is kept iff `i` is 0 or the key at `i - 1` differs. The kept elements stay in increasing positions, so the output is the input's subsequence of run heads. |
| Dedup.DedupByKeepsEveryKey | src/main.rs:193-195 | Every key present in the input is present in `dedup`'s output. |
| Dedup.DedupByIdentity | src/main.rs:193-195 | `dedup` of a sequence without adjacent duplicates is the sequence itself. |
| Dedup.DedupBeforeMap | src/main.rs:193-195 | Dropping adjacent repeats before a map and again after it equals dropping them only after it. |
| Aggregate.SortByKey | src/main.rs:220 | The sort yields a permutation of its input ordered by `(name, path)`. |
| Aggregate.DedupSortedIsStrict | src/main.rs:221 | After a sort by key, `dedup_by` on `(name, path)` gives a strictly increasing sequence. |
| Aggregate.SortDedup | src/main.rs:218-221 | The result is strictly increasing by `(name, path)`. It holds only input entries, and it has an entry for every input key. |
| Aggregate.StrictlySortedUnique | src/main.rs:218-221 | Two strictly increasing sequences with the same elements are equal, so the printed order is determined by the set found. |
| Aggregate.AggregateKeepsEntries | src/main.rs:218-221 | When equal keys mean equal entries, the result holds exactly the input's entries. |
| Aggregate.AggregateIdempotent | src/main.rs:218-221 | Aggregating twice is aggregating once. |
| Aggregate.AggregateIgnoresInputOrder | src/main.rs:203-221 | When equal keys mean equal entries, any reordering of the found entries prints the same list, whatever order the walk met them in. |
| Aggregate.AnySortAgrees | src/main.rs:218-221 | When equal keys mean equal entries, `dedup_by` after any sorted permutation of the found entries, stable or not, gives exactly the model's listing. |
| Aggregate.SameNameDifferentPathsKept | src/main.rs:221 | Two entries with one name at two paths both survive the deduplication. |
| Listing.Render | src/main.rs:39-56 | `--names-only` prints the name, and otherwise `--paths-only` prints the path. The full line splits at its tabs back into name, path and parenthesised build type when none holds a tab. |
| Listing.FullLineReadsBack | src/main.rs:39-46 | The line `print` writes has three tab-separated fields: the name, the path and `(build_type)`. |
| Listing.ScanAllFindsDescendants | src/main.rs:206-215 | Each entry from scanning several roots lies strictly below one of them, and one level below it when `recurse` is off. |
| Listing.ScanAllFailurePersists | src/main.rs:206-215 | The first root whose scan fails decides the error of the whole loop. |
| Listing.DefaultScan | src/main.rs:210-211 | With no candidate and no base path, no flat check runs and only `.` is scanned, recursively. |
| Listing.Collect | src/main.rs:203-216 | With neither `--paths` nor `--base-paths`, the gathered entries are those of a recursive scan of `.`. |
| Listing.ScanAllSound | src/main.rs:206-215 | Every entry a successful loop over several roots gathers is a package discovered below one of those roots, by a walk with that loop's `recurse` flag. |
| Listing.ScanAllHasFind | src/main.rs:206-215 | A successful loop over several roots holds everything `find_packages` appends for each one of them. |
| Listing.CollectComplete | src/main.rs:203-216 | When the command succeeds, every package discovered by the flat check of a preprocessed candidate is gathered, and so is every package discovered by the recursive scan of a base root (or `.`). |
| Listing.CollectSound | src/main.rs:203-216 | Every gathered entry is a package discovered by the flat check of a preprocessed candidate or by the recursive scan of a base root (or `.`), so each printed line comes from a real package. |
| Listing.CandidateItselfNotChecked | src/main.rs:206-208 | A candidate path that is itself a package is not reported by its own flat check, because only the entries below it are classified. |
| Listing.CollectFindsDescendants | src/main.rs:203-216 | Every gathered entry lies one level below a preprocessed candidate path, or strictly below a preprocessed base path (or `.`). |
| Listing.LinesRenderFoundEntries | src/main.rs:218-224 | Every printed line renders an entry that was found. |
| Listing.LinesCoverFoundKeys | src/main.rs:218-224 | Every `(name, path)` pair found is printed on a line, rendered from the entry kept for that pair. |
| Listing.ScanRoots | src/main.rs:206-208 | The `for` loop of `find_packages(…)?` calls computes `ScanAll`. It only appends, and it stops at the first error. |
| Listing.RunList | src/main.rs:199-224 | `main` for `list`, written as loops over the roots as in the source, returns exactly the lines of the declarative `List`, or its error. |

## Left out

- Command-line parsing (`clap`), `--log-base` and `--topological-order`: argument handling is outside the engine, and the last two are read by nothing. `--names-only` and `--paths-only` are exclusive in the source, and the model gives `namesOnly` precedence as `print_from_opts` does.
- XML deserialisation: `parse_package` becomes the `parse` parameter. `File::open` failing and malformed XML both appear as `None`.
- The real filesystem, `canonicalize` and `read_dir`: the first two become parameters, and `read_dir` becomes the node's children in their listed order, which the source also does not choose.
- Per-entry `read_dir` errors dropped by `.flatten()`: every listed child is assumed readable as an entry. Only the directory-level `read_dir` error is modelled.
- Symbolic links and link cycles: the tree has no links. The walk through a link that `is_dir` follows, and its possible non-termination, is not modelled.
- Symlink provisioning of build artifacts: `src/main.rs` holds no code for it, so it is not part of this model.
- Printing: `println!` becomes the returned sequence of lines. `to_string_lossy` is the identity, since names are `string`s here and non-UTF-8 names are not modelled.
- Windows path prefixes (`Component::Prefix`): only `RootDir`, `CurDir`, `ParentDir` and normal names are modelled. Paths are kept as component sequences, so spellings that differ only in separators are equal here, as they are for `PathBuf` comparison.
- Aggregate.SortByKey: `sorted_unstable_by_key` may order entries with equal keys either way, but the model sorts stably. `Aggregate.AnySortAgrees` shows that the listing is the same for every sort, given that equal keys mean equal entries (`Consistent`). Two different entries with one key, which would need two manifests at one path, are not covered.
- Process exit codes: the `io::Result` error of `main` is the `Failure` value.

=== FILE: aggregate.dfy ===
/** The final ordering of a listing: entries sorted by `(name, path)` and
    adjacent entries equal on both collapsed. Rust's `sorted_unstable_by_key`
    is modelled by an insertion sort. For inputs where a `(name, path)` pair
    names one entry, `AnySortAgrees` shows that the result does not depend on
    the sort chosen, and `AggregateIgnoresInputOrder` that it does not depend
    on the input order. */
module Aggregate {
  import opened Paths
  import opened Packages
  import opened Dedup

  /** The tuple `(&e.pkg.name, &e.path)` the listing sorts and collapses by. */
  function Key(e: Entry): (string, Path) {
    (e.pkg.name, e.path)
  }

  /** Tuple order on keys: by name, then by path. */
  function KeyLess(a: Entry, b: Entry): bool {
    StringLess(a.pkg.name, b.pkg.name) || (a.pkg.name == b.pkg.name && PathLess(a.path, b.path))
  }

  lemma KeyOrder()
    ensures forall a, b :: Key(a) == Key(b) ==> !KeyLess(a, b)
    ensures forall a, b, c :: KeyLess(a, b) && KeyLess(b, c) ==> KeyLess(a, c)
    ensures forall a, b :: Key(a) != Key(b) ==> KeyLess(a, b) || KeyLess(b, a)
  {
    StringLessIsStrictTotal();
    PathLessIsStrictTotal();
  }

  /** "Not below" is transitive too, since keys are totally ordered. */
  lemma NotLessTransitive(a: Entry, b: Entry, c: Entry)
    requires !KeyLess(b, a) && !KeyLess(c, b)
    ensures !KeyLess(c, a)
  {
    KeyOrder();
  }

  ghost predicate SortedByKey(s: seq<Entry>) {
    forall i, j :: 0 <= i < j < |s| ==> !KeyLess(s[j], s[i])
  }

  ghost predicate StrictlySorted(s: seq<Entry>) {
    forall i, j :: 0 <= i < j < |s| ==> KeyLess(s[i], s[j])
  }

  /** Equal keys mean equal entries: one `(name, path)` pair, one package. */
  ghost predicate Consistent(s: seq<Entry>) {
    forall i, j :: 0 <= i < |s| && 0 <= j < |s| && Key(s[i]) == Key(s[j]) ==> s[i] == s[j]
  }

  lemma PrependSorted(y: Entry, t: seq<Entry>)
    requires SortedByKey(t)
    requires forall z :: z in t ==> !KeyLess(z, y)
    ensures SortedByKey([y] + t)
  {
    forall i, j | 0 <= i < j < |[y] + t| ensures !KeyLess(([y] + t)[j], ([y] + t)[i]) {
      if i == 0 {
        assert ([y] + t)[j] == t[j - 1];
        assert t[j - 1] in t;
      } else {
        assert ([y] + t)[j] == t[j - 1] && ([y] + t)[i] == t[i - 1];
      }
    }
  }

  lemma KeyAsymmetric(a: Entry, b: Entry)
    requires KeyLess(a, b)
    ensures !KeyLess(b, a)
  {
    KeyOrder();
  }

  lemma InsertBehindHead(x: Entry, s: seq<Entry>, rest: seq<Entry>)
    requires SortedByKey(s) && |s| > 0 && KeyLess(s[0], x)
    requires SortedByKey(rest) && multiset(rest) == multiset(s[1..]) + multiset{x}
    ensures SortedByKey([s[0]] + rest)
  {
    forall y | y in rest ensures !KeyLess(y, s[0]) {
      assert y in multiset(rest);
      if y == x {
        KeyAsymmetric(s[0], x);
      } else {
        assert y in multiset(s[1..]);
        var k :| 1 <= k < |s| && s[k] == y by {
          assert y in s[1..];
        }
      }
    }
    PrependSorted(s[0], rest);
  }

  lemma InsertAtHead(x: Entry, s: seq<Entry>)
    requires SortedByKey(s) && |s| > 0 && !KeyLess(s[0], x)
    ensures SortedByKey([x] + s)
  {
    forall y | y in s ensures !KeyLess(y, x) {
      var k :| 0 <= k < |s| && s[k] == y;
      if k > 0 {
        NotLessTransitive(x, s[0], s[k]);
      }
    }
    PrependSorted(x, s);
  }

  function Insert(x: Entry, s: seq<Entry>): (r: seq<Entry>)
    requires SortedByKey(s)
    ensures SortedByKey(r)
    ensures multiset(r) == multiset(s) + multiset{x}
    decreases |s|
  {
    if |s| == 0 then [x]
    else
      assert s == [s[0]] + s[1..];
      if KeyLess(s[0], x) then
        var rest := Insert(x, s[1..]);
        InsertBehindHead(x, s, rest);
        [s[0]] + rest
      else
        InsertAtHead(x, s);
        [x] + s
  }

  /** A sorted permutation of `s`. */
  function SortByKey(s: seq<Entry>): (r: seq<Entry>)
    ensures SortedByKey(r)
    ensures multiset(r) == multiset(s)
    decreases |s|
  {
    if |s| == 0 then []
    else
      assert s == [s[0]] + s[1..];
      Insert(s[0], SortByKey(s[1..]))
  }

  /** Collapsing adjacent repeats of a sorted sequence leaves it strictly sorted. */
  lemma {:induction false} DedupSortedIsStrict(s: seq<Entry>)
    requires SortedByKey(s)
    ensures StrictlySorted(DedupBy(s, Key))
    decreases |s|
  {
    if |s| > 0 {
      var init := s[..|s| - 1];
      var x := s[|s| - 1];
      var d := DedupBy(init, Key);
      assert s == init + [x];
      DedupSortedIsStrict(init);
      DedupBySnoc(init, x, Key);
      if !(|init| > 0 && Key(init[|init| - 1]) == Key(x)) && |d| > 0 {
        KeyOrder();
        var last := d[|d| - 1];
        assert Key(last) == Key(init[|init| - 1]);
        assert KeyLess(last, x);
        forall j | 0 <= j < |d| ensures KeyLess(d[j], x) {
          if j < |d| - 1 {
            assert KeyLess(d[j], last);
          }
        }
      }
    }
  }

  /** The listing's entries: sorted by `(name, path)` with exact repeats
      collapsed. Every entry comes from the input, strictly increasing keys
      leave no duplicate, and every `(name, path)` pair of the input survives,
      so entries sharing a name at different paths are all kept. */
  function SortDedup(s: seq<Entry>): (r: seq<Entry>)
    ensures StrictlySorted(r)
    ensures forall e :: e in r ==> e in s
    ensures forall i :: 0 <= i < |s| ==> HasKey(r, Key, Key(s[i]))
  {
    var sorted := SortByKey(s);
    var r := DedupBy(sorted, Key);
    DedupSortedIsStrict(sorted);
    DedupByKeepsEveryKey(sorted, Key);
    assert forall e :: e in r ==> e in s by {
      forall e | e in r ensures e in s {
        assert e in multiset(sorted);
      }
    }
    assert forall i :: 0 <= i < |s| ==> HasKey(r, Key, Key(s[i])) by {
      forall i | 0 <= i < |s| ensures HasKey(r, Key, Key(s[i])) {
        assert s[i] in multiset(sorted);
        var k :| 0 <= k < |sorted| && sorted[k] == s[i];
      }
    }
    r
  }

  /** Two strictly sorted sequences holding the same entries are equal. */
  lemma {:induction false} StrictlySortedUnique(a: seq<Entry>, b: seq<Entry>)
    requires StrictlySorted(a) && StrictlySorted(b)
    requires forall e :: e in a <==> e in b
    ensures a == b
    decreases |a|
  {
    KeyOrder();
    if |a| > 0 {
      assert a[0] in b;
    }
    if |b| > 0 {
      assert b[0] in a;
    }
    if |a| > 0 && |b| > 0 {
      var j :| 0 <= j < |b| && b[j] == a[0];
      var i :| 0 <= i < |a| && a[i] == b[0];
      assert i == 0;
      assert a == [a[0]] + a[1..] && b == [b[0]] + b[1..];
      forall e ensures e in a[1..] <==> e in b[1..] {
        if e in a[1..] {
          var i :| 1 <= i < |a| && a[i] == e;
          assert KeyLess(a[0], a[i]);
          assert e in b && e != b[0];
        }
        if e in b[1..] {
          var j :| 1 <= j < |b| && b[j] == e;
          assert KeyLess(b[0], b[j]);
          assert e in a && e != a[0];
        }
      }
      StrictlySortedUnique(a[1..], b[1..]);
    }
  }

  /** On a consistent input, aggregation keeps exactly the input's entries. */
  lemma AggregateKeepsEntries(s: seq<Entry>)
    requires Consistent(s)
    ensures forall e :: e in SortDedup(s) <==> e in s
  {
    var r := SortDedup(s);
    forall e | e in s ensures e in r {
      var i :| 0 <= i < |s| && s[i] == e;
      assert HasKey(r, Key, Key(s[i]));
      var j :| 0 <= j < |r| && Key(r[j]) == Key(s[i]);
      assert r[j] in s;
    }
  }

  lemma StrictlySortedIsConsistent(s: seq<Entry>)
    requires StrictlySorted(s)
    ensures Consistent(s)
  {
    KeyOrder();
    forall i, j | 0 <= i < |s| && 0 <= j < |s| && Key(s[i]) == Key(s[j]) ensures s[i] == s[j] {
      assert i == j;
    }
  }

  /** Aggregating twice is aggregating once. */
  lemma AggregateIdempotent(s: seq<Entry>)
    ensures SortDedup(SortDedup(s)) == SortDedup(s)
  {
    var r := SortDedup(s);
    StrictlySortedIsConsistent(r);
    AggregateKeepsEntries(r);
    StrictlySortedUnique(SortDedup(r), r);
  }

  /** Reordering a consistent input never changes the listing. */
  lemma AggregateIgnoresInputOrder(s: seq<Entry>, t: seq<Entry>)
    requires Consistent(s)
    requires multiset(s) == multiset(t)
    ensures SortDedup(s) == SortDedup(t)
  {
    assert forall e :: e in s <==> e in t by {
      forall e ensures e in s <==> e in t {
        assert e in s <==> e in multiset(s);
        assert e in t <==> e in multiset(t);
      }
    }
    assert Consistent(t) by {
      forall i, j | 0 <= i < |t| && 0 <= j < |t| && Key(t[i]) == Key(t[j]) ensures t[i] == t[j] {
        assert t[i] in s && t[j] in s;
        var a :| 0 <= a < |s| && s[a] == t[i];
        var b :| 0 <= b < |s| && s[b] == t[j];
      }
    }
    AggregateKeepsEntries(s);
    AggregateKeepsEntries(t);
    StrictlySortedUnique(SortDedup(s), SortDedup(t));
  }

  /** Entries that share a name but not a path both appear in the listing. */
  lemma SameNameDifferentPathsKept(s: seq<Entry>, i: nat, j: nat)
    requires i < |s| && j < |s|
    requires s[i].pkg.name == s[j].pkg.name && s[i].path != s[j].path
    ensures exists a, b :: 0 <= a < |SortDedup(s)| && 0 <= b < |SortDedup(s)| && a != b
              && SortDedup(s)[a].path == s[i].path && SortDedup(s)[b].path == s[j].path
  {
    var r := SortDedup(s);
    assert HasKey(r, Key, Key(s[i])) && HasKey(r, Key, Key(s[j]));
    var a :| 0 <= a < |r| && Key(r[a]) == Key(s[i]);
    var b :| 0 <= b < |r| && Key(r[b]) == Key(s[j]);
  }

  /** Any sort by key, stable or not, gives the same listing: collapsing
      equal-key neighbours of any sorted permutation of a consistent input
      yields exactly `SortDedup`. */
  lemma AnySortAgrees(s: seq<Entry>, u: seq<Entry>)
    requires Consistent(s)
    requires SortedByKey(u)
    requires multiset(u) == multiset(s)
    ensures DedupBy(u, Key) == SortDedup(s)
  {
    var d := DedupBy(u, Key);
    DedupSortedIsStrict(u);
    DedupByKeepsEveryKey(u, Key);
    AggregateKeepsEntries(s);
    assert forall e :: e in u <==> e in s by {
      forall e ensures e in u <==> e in s {
        assert e in u <==> e in multiset(u);
        assert e in s <==> e in multiset(s);
      }
    }
    forall e ensures e in d <==> e in SortDedup(s) {
      if e in s {
        var i :| 0 <= i < |u| && u[i] == e;
        assert HasKey(d, Key, Key(u[i]));
        var j :| 0 <= j < |d| && Key(d[j]) == Key(u[i]);
        assert d[j] in s;
        var a :| 0 <= a < |s| && s[a] == d[j];
        var b :| 0 <= b < |s| && s[b] == e;
        assert d[j] == e;
      }
    }
    StrictlySortedUnique(d, SortDedup(s));
  }
}

=== FILE: classify.dfy ===
/** The per-directory classifier `check_path`: one closed outcome per path,
    decided by rules applied in a fixed order. */
module Classify {
  import opened Wrappers
  import opened Paths
  import opened Tree
  import opened Packages

  datatype SearchOutcome = Found(entry: Entry) | Ignored | IsFile | Recurse

  /** Files whose mere presence excludes a directory and its whole subtree. */
  const IgnoreMarkers: seq<string> := ["COLCON_IGNORE", "CATKIN_IGNORE", "AMENT_IGNORE"]

  const ManifestName: string := "package.xml"

  /** The base name of `p` exists and starts with a dot. */
  predicate IsDotName(p: Path) {
    match FileName(p)
    case Some(n) => |n| > 0 && n[0] == '.'
    case None => false
  }

  predicate HasIgnoreMarker(dir: Node) {
    exists i :: 0 <= i < |IgnoreMarkers| && HasChild(dir, IgnoreMarkers[i])
  }

  /** The package `dir` declares: its `package.xml` exists, is a readable file
      and deserialises. A `package.xml` that is itself a directory opens but
      cannot be read, so it declares nothing. */
  function ManifestPackage(dir: Node, parse: Parser): Option<Package> {
    if !dir.Dir? then None
    else
      match ChildNamed(dir.children, ManifestName)
      case Some(File(_, text)) =>
        (match parse(text)
         case Some(m) => Some(ToPackage(m))
         case None => None)
      case _ => None
  }

  /** `check_path(p)` where `p` names the node `n`. The rules apply in order:
      not a directory, dot-prefixed name, ignore marker, parseable manifest;
      whatever is left is a directory to descend into. */
  function CheckPath(n: Node, p: Path, parse: Parser): (o: SearchOutcome)
    ensures !n.Dir? <==> o == IsFile
    ensures o == Ignored <==> n.Dir? && (IsDotName(p) || HasIgnoreMarker(n))
    ensures o.Found? <==> n.Dir? && !IsDotName(p) && !HasIgnoreMarker(n) && ManifestPackage(n, parse).Some?
    ensures o.Found? ==> o.entry == Entry(ManifestPackage(n, parse).value, p)
    ensures o == Recurse <==> n.Dir? && !IsDotName(p) && !HasIgnoreMarker(n) && ManifestPackage(n, parse).None?
  {
    if !n.Dir? then IsFile
    else if IsDotName(p) then Ignored
    else if HasIgnoreMarker(n) then Ignored
    else
      match ManifestPackage(n, parse)
      case Some(pkg) => Found(Entry(pkg, p))
      case None => Recurse
  }

  lemma {:induction false} ChildNamedAppend(entries: seq<Node>, extra: Node, name: string)
    requires extra.name == name
    ensures ChildNamed(entries + [extra], name).Some?
  {
    assert (entries + [extra])[|entries|].name == name;
  }

  /** Dropping any ignore marker into a directory makes it `Ignored`, whatever
      its manifest says and whatever else it holds. */
  lemma AddingMarkerIgnores(name: string, readable: bool, entries: seq<Node>, i: nat, marker: Node, p: Path, parse: Parser)
    requires i < |IgnoreMarkers| && marker.name == IgnoreMarkers[i]
    ensures CheckPath(Dir(name, readable, entries + [marker]), p, parse) == Ignored
  {
    ChildNamedAppend(entries, marker, IgnoreMarkers[i]);
    assert HasChild(Dir(name, readable, entries + [marker]), IgnoreMarkers[i]);
  }

  /** A manifest that is missing or does not parse is never an error: a
      directory that is neither dot-named nor marked is then descended into. */
  lemma UnparseableManifestRecurses(n: Node, p: Path, parse: Parser)
    requires n.Dir? && !IsDotName(p) && !HasIgnoreMarker(n)
    requires ChildNamed(n.children, ManifestName).Some? ==>
               ChildNamed(n.children, ManifestName).value.Dir? ||
               parse(ChildNamed(n.children, ManifestName).value.content).None?
    ensures CheckPath(n, p, parse) == Recurse
  {
  }
}

=== FILE: dedup.dfy ===
/** Removal of adjacent duplicates, as `Itertools::dedup` / `dedup_by` do it:
    of each run of consecutive elements with equal keys, the first is kept. */
module Dedup {

  predicate NoAdjacentDuplicates<T, K(==)>(s: seq<T>, key: T -> K) {
    forall i :: 0 < i < |s| ==> key(s[i - 1]) != key(s[i])
  }

  /** Some element of `s` has key `k`. */
  ghost predicate HasKey<T, K>(s: seq<T>, key: T -> K, k: K) {
    exists j :: 0 <= j < |s| && key(s[j]) == k
  }

  function DedupBy<T(==), K(==)>(s: seq<T>, key: T -> K): (r: seq<T>)
    ensures NoAdjacentDuplicates(r, key)
    ensures |r| <= |s| && (|r| == 0 <==> |s| == 0)
    ensures |s| > 0 ==> key(r[|r| - 1]) == key(s[|s| - 1])
    ensures forall x :: x in r ==> x in s
    decreases |s|
  {
    if |s| == 0 then []
    else
      var d := DedupBy(s[..|s| - 1], key);
      var last := s[|s| - 1];
      if |d| > 0 && key(d[|d| - 1]) == key(last) then d else d + [last]
  }

  /** The step `DedupBy` takes for one more element at the end. */
  lemma DedupBySnoc<T, K>(s: seq<T>, x: T, key: T -> K)
    ensures DedupBy(s + [x], key) ==
              if |s| > 0 && key(s[|s| - 1]) == key(x) then DedupBy(s, key) else DedupBy(s, key) + [x]
  {
    var t := s + [x];
    assert t[..|t| - 1] == s && t[|t| - 1] == x;
    var d := DedupBy(s, key);
    assert DedupBy(t, key) == if |d| > 0 && key(d[|d| - 1]) == key(x) then d else d + [x];
    if |s| > 0 {
      assert key(d[|d| - 1]) == key(s[|s| - 1]);
    }
  }

  /** Only exact repeats of a key are dropped: every key of the input survives. */
  lemma {:induction false} DedupByKeepsEveryKey<T, K>(s: seq<T>, key: T -> K)
    ensures forall i :: 0 <= i < |s| ==> HasKey(DedupBy(s, key), key, key(s[i]))
    decreases |s|
  {
    if |s| > 0 {
      var init := s[..|s| - 1];
      var r := DedupBy(s, key);
      var d := DedupBy(init, key);
      DedupByKeepsEveryKey(init, key);
      assert d <= r;
      forall i | 0 <= i < |s| ensures HasKey(r, key, key(s[i])) {
        if i < |s| - 1 {
          assert s[i] == init[i];
          var j :| 0 <= j < |d| && key(d[j]) == key(init[i]);
          assert r[j] == d[j];
        } else {
          assert key(r[|r| - 1]) == key(s[i]);
        }
      }
    }
  }

  /** A sequence without adjacent duplicates is left as it is. */
  lemma {:induction false} DedupByIdentity<T, K>(s: seq<T>, key: T -> K)
    requires NoAdjacentDuplicates(s, key)
    ensures DedupBy(s, key) == s
    decreases |s|
  {
    if |s| > 0 {
      var init := s[..|s| - 1];
      assert NoAdjacentDuplicates(init, key);
      DedupByIdentity(init, key);
      DedupBySnoc(init, s[|s| - 1], key);
      assert s == init + [s[|s| - 1]];
    }
  }

  /** Position `i` starts a run: it is the first position, or its key differs
      from the key just before it. */
  predicate IsRunStart<T, K(==)>(s: seq<T>, key: T -> K, i: nat)
    requires i < |s|
  {
    i == 0 || key(s[i - 1]) != key(s[i])
  }

  /** The positions that start a run, in increasing order: exactly the
      positions a filter over the input keeps. */
  function RunStarts<T, K(==)>(s: seq<T>, key: T -> K): (r: seq<nat>)
    ensures forall j :: 0 <= j < |r| ==> r[j] < |s| && IsRunStart(s, key, r[j])
    ensures forall j, k :: 0 <= j < k < |r| ==> r[j] < r[k]
    ensures forall i :: 0 <= i < |s| && IsRunStart(s, key, i) ==> i in r
    decreases |s|
  {
    if |s| == 0 then []
    else
      var init := s[..|s| - 1];
      var r := RunStarts(init, key);
      assert forall i :: 0 <= i < |init| ==> (IsRunStart(init, key, i) <==> IsRunStart(s, key, i));
      if IsRunStart(s, key, |s| - 1) then r + [|s| - 1] else r
  }

  /** The first element of every run of equal keys, in input order. */
  function RunHeads<T, K(==)>(s: seq<T>, key: T -> K): seq<T> {
    var starts := RunStarts(s, key);
    seq(|starts|, j requires 0 <= j < |starts| => s[starts[j]])
  }

  /** The step `RunHeads` takes for one more element at the end. */
  lemma RunHeadsSnoc<T, K>(s: seq<T>, key: T -> K)
    requires |s| > 0
    ensures RunHeads(s, key) ==
              RunHeads(s[..|s| - 1], key) + if IsRunStart(s, key, |s| - 1) then [s[|s| - 1]] else []
  {
    var init := s[..|s| - 1];
    var starts := RunStarts(init, key);
    var heads := RunHeads(init, key);
    assert forall j :: 0 <= j < |starts| ==> s[starts[j]] == init[starts[j]];
    if IsRunStart(s, key, |s| - 1) {
      assert RunStarts(s, key) == starts + [|s| - 1];
      assert RunHeads(s, key) == heads + [s[|s| - 1]];
    } else {
      assert RunStarts(s, key) == starts;
      assert RunHeads(s, key) == heads;
    }
  }

  /** `dedup_by` keeps exactly the first element of each run and keeps the
      input's order: it is the filter `RunHeads`. */
  lemma {:induction false} DedupByIsRunHeads<T, K>(s: seq<T>, key: T -> K)
    ensures DedupBy(s, key) == RunHeads(s, key)
    decreases |s|
  {
    if |s| > 0 {
      var init := s[..|s| - 1];
      DedupByIsRunHeads(init, key);
      RunHeadsSnoc(s, key);
      var d := DedupBy(init, key);
      if |init| > 0 {
        assert key(d[|d| - 1]) == key(s[|s| - 2]);
      }
    }
  }

  /** The key under which `dedup` compares: the element itself. */
  function Id<T>(x: T): T {
    x
  }
  function Map<T, U>(f: T -> U, s: seq<T>): (r: seq<U>)
    ensures |r| == |s|
    ensures forall i :: 0 <= i < |s| ==> r[i] == f(s[i])
  {
    seq(|s|, i requires 0 <= i < |s| => f(s[i]))
  }
  lemma MapSnoc<T, U>(f: T -> U, s: seq<T>, x: T)
    ensures Map(f, s + [x]) == Map(f, s) + [f(x)]
  {
  }

  /** Dropping adjacent repeats before mapping changes nothing once repeats
      are dropped again after it: equal neighbours map to equal neighbours. */
  lemma {:induction false} DedupBeforeMap<T>(f: T -> T, s: seq<T>)
    ensures DedupBy(Map(f, DedupBy(s, Id)), Id) == DedupBy(Map(f, s), Id)
    decreases |s|
  {
    if |s| > 0 {
      var init := s[..|s| - 1];
      var x := s[|s| - 1];
      assert s == init + [x];
      DedupBeforeMap(f, init);
      if |init| > 0 && init[|init| - 1] == x {
        DedupBeforeMapRepeat(f, init, x);
      } else {
        DedupBeforeMapFresh(f, init, x);
      }
    }
  }
  lemma DedupBeforeMapRepeat<T>(f: T -> T, init: seq<T>, x: T)
    requires |init| > 0 && init[|init| - 1] == x
    requires DedupBy(Map(f, DedupBy(init, Id)), Id) == DedupBy(Map(f, init), Id)
    ensures DedupBy(Map(f, DedupBy(init + [x], Id)), Id) == DedupBy(Map(f, init + [x]), Id)
  {
      var a := DedupBy(init, Id);
      var m := Map(f, init);
      DedupBySnoc(init, x, Id);
      MapSnoc(f, init, x);
      DedupBySnoc(m, f(x), Id);
      assert DedupBy(init + [x], Id) == a;
      assert m[|m| - 1] == f(x);
  }
  lemma DedupBeforeMapFresh<T>(f: T -> T, init: seq<T>, x: T)
    requires !(|init| > 0 && init[|init| - 1] == x)
    requires DedupBy(Map(f, DedupBy(init, Id)), Id) == DedupBy(Map(f, init), Id)
    ensures DedupBy(Map(f, DedupBy(init + [x], Id)), Id) == DedupBy(Map(f, init + [x]), Id)
  {
    var a := DedupBy(init, Id);
    var m := Map(f, init);
    var ma := Map(f, a);
    var fx := f(x);
    DedupBySnoc(init, x, Id);
    assert DedupBy(init + [x], Id) == a + [x];
    MapSnoc(f, a, x);
    MapSnoc(f, init, x);
    assert Map(f, a + [x]) == ma + [fx];
    assert Map(f, init + [x]) == m + [fx];
    DedupBySnoc(ma, fx, Id);
    DedupBySnoc(m, fx, Id);
    if |init| == 0 {
      assert a == [] && m == [] && ma == [];
    } else {
      assert Id(a[|a| - 1]) == Id(init[|init| - 1]);
      assert ma[|ma| - 1] == m[|m| - 1];
    }
  }

  lemma MapFixedPoints<T>(f: T -> T, s: seq<T>)
    requires forall x :: x in s ==> f(x) == x
    ensures Map(f, s) == s
  {
  }
}

=== FILE: discovery.dfy ===
/** What the walk finds, stated without the walk: a package is discovered below
    `n` when a route of entries leads to a directory classified `Found` and
    every directory strictly between `n` and it is classified `Recurse`. The
    lemmas show the walk returns exactly those packages and never looks inside
    a directory classified anything else. */
module Discovery {
  import opened Wrappers
  import opened Paths
  import opened Tree
  import opened Packages
  import opened Classify
  import opened Scanner
  import opened Host

  /** The node at `route` below `n` exists and is a directory to descend into. */
  ghost predicate RecursesAt(n: Node, p: Path, route: seq<nat>, parse: Parser) {
    var loc := Locate(n, p, route);
    loc.Some? && CheckPath(loc.value.0, loc.value.1, parse) == Recurse
  }

  /** `e` is the package at the end of `route`, reached only through `Recurse`
      directories; a route longer than one entry needs `recurse`. */
  ghost predicate Discovered(n: Node, p: Path, recurse: bool, parse: Parser, route: seq<nat>, e: Entry) {
    var loc := Locate(n, p, route);
    && |route| > 0
    && (recurse || |route| == 1)
    && loc.Some?
    && CheckPath(loc.value.0, loc.value.1, parse) == Found(e)
    && (forall k :: 0 < k < |route| ==> RecursesAt(n, p, route[..k], parse))
  }

  /** Peeling the first entry off a route. */
  lemma DiscoveredStep(n: Node, p: Path, recurse: bool, parse: Parser, route: seq<nat>, e: Entry)
    requires n.Dir? && |route| > 0 && route[0] < |n.children|
    ensures var c := n.children[route[0]];
            var cp := ChildPath(p, c);
            Discovered(n, p, recurse, parse, route, e) <==>
              || (|route| == 1 && CheckPath(c, cp, parse) == Found(e))
              || (|route| > 1 && recurse && CheckPath(c, cp, parse) == Recurse
                  && Discovered(c, cp, recurse, parse, route[1..], e))
  {
    var c := n.children[route[0]];
    var cp := ChildPath(p, c);
    var rest := route[1..];
    assert Locate(n, p, route) == Locate(c, cp, rest);
    forall k | 0 < k < |route|
      ensures RecursesAt(n, p, route[..k], parse) <==>
                (if k == 1 then CheckPath(c, cp, parse) == Recurse else RecursesAt(c, cp, rest[..k - 1], parse))
    {
      assert route[..k][1..] == rest[..k - 1];
      assert Locate(n, p, route[..k]) == Locate(c, cp, rest[..k - 1]);
    }
    if Discovered(n, p, recurse, parse, route, e) && |route| > 1 {
      assert RecursesAt(n, p, route[..1], parse);
      forall k | 0 < k < |rest| ensures RecursesAt(c, cp, rest[..k], parse) {
        assert RecursesAt(n, p, route[..k + 1], parse);
      }
    }
    if |route| > 1 && recurse && CheckPath(c, cp, parse) == Recurse && Discovered(c, cp, recurse, parse, rest, e) {
      forall k | 0 < k < |route| ensures RecursesAt(n, p, route[..k], parse) {
        if k > 1 {
          assert RecursesAt(c, cp, rest[..k - 1], parse);
        }
      }
    }
  }

  /** Soundness: everything the walk appends is discovered. */
  lemma {:induction false} WalkSound(n: Node, p: Path, recurse: bool, parse: Parser)
    requires Walk(n, p, recurse, parse).Success?
    ensures forall e :: e in Walk(n, p, recurse, parse).value ==>
              exists route :: Discovered(n, p, recurse, parse, route, e)
    decreases n, 1, 0
  {
    if n.Dir? {
      WalkChildrenSound(n, p, |n.children|, recurse, parse);
    }
  }

  lemma {:induction false} WalkChildrenSound(n: Node, p: Path, k: nat, recurse: bool, parse: Parser)
    requires n.Dir? && k <= |n.children|
    requires WalkChildren(n, p, k, recurse, parse).Success?
    ensures forall e :: e in WalkChildren(n, p, k, recurse, parse).value ==>
              exists route :: Discovered(n, p, recurse, parse, route, e)
    decreases n, 0, k
  {
    if k > 0 {
      var prior := WalkChildren(n, p, k - 1, recurse, parse).value;
      WalkChildrenSound(n, p, k - 1, recurse, parse);
      var c := n.children[k - 1];
      var cp := ChildPath(p, c);
      var out := WalkChildren(n, p, k, recurse, parse).value;
      assert out == VisitChild(prior, c, cp, recurse, parse).value;
      match CheckPath(c, cp, parse)
      case Found(found) =>
        DiscoveredStep(n, p, recurse, parse, [k - 1], found);
      case Recurse =>
        if recurse {
          WalkSound(c, cp, recurse, parse);
          var sub := Walk(c, cp, recurse, parse).value;
          forall e | e in sub ensures exists route :: Discovered(n, p, recurse, parse, route, e) {
            var inner :| Discovered(c, cp, recurse, parse, inner, e);
            var route := [k - 1] + inner;
            assert route[1..] == inner;
            DiscoveredStep(n, p, recurse, parse, route, e);
          }
        }
      case _ =>
    }
  }

  /** Completeness: every discovered package is appended by a walk that succeeds. */
  lemma {:induction false} WalkComplete(n: Node, p: Path, recurse: bool, parse: Parser, route: seq<nat>, e: Entry)
    requires Walk(n, p, recurse, parse).Success?
    requires Discovered(n, p, recurse, parse, route, e)
    ensures e in Walk(n, p, recurse, parse).value
    decreases n, 1, 0
  {
    WalkChildrenComplete(n, p, |n.children|, recurse, parse, route, e);
  }

  lemma {:induction false} WalkChildrenComplete(n: Node, p: Path, k: nat, recurse: bool, parse: Parser, route: seq<nat>, e: Entry)
    requires n.Dir? && k <= |n.children|
    requires WalkChildren(n, p, k, recurse, parse).Success?
    requires Discovered(n, p, recurse, parse, route, e) && route[0] < k
    ensures e in WalkChildren(n, p, k, recurse, parse).value
    decreases n, 0, k
  {
    var prior := WalkChildren(n, p, k - 1, recurse, parse).value;
    var c := n.children[k - 1];
    var cp := ChildPath(p, c);
    var out := WalkChildren(n, p, k, recurse, parse).value;
    assert out == VisitChild(prior, c, cp, recurse, parse).value;
    assert prior <= out;
    if route[0] == k - 1 {
      DiscoveredStep(n, p, recurse, parse, route, e);
      if |route| > 1 {
        WalkComplete(c, cp, recurse, parse, route[1..], e);
      }
    } else {
      WalkChildrenComplete(n, p, k - 1, recurse, parse, route, e);
    }
  }

  /** Every appended package lies strictly below the directory walked. */
  lemma WalkFindsStrictDescendants(n: Node, p: Path, recurse: bool, parse: Parser)
    requires Walk(n, p, recurse, parse).Success?
    ensures forall e :: e in Walk(n, p, recurse, parse).value ==> IsProperPrefix(p, e.path)
  {
    WalkSound(n, p, recurse, parse);
  }

  /** Without `recurse`, only the immediate entries of the directory are looked at. */
  lemma FlatWalkSeesOnlyEntries(n: Node, p: Path, parse: Parser)
    requires Walk(n, p, false, parse).Success?
    ensures forall e :: e in Walk(n, p, false, parse).value ==>
              n.Dir? && exists i :: 0 <= i < |n.children| && e.path == ChildPath(p, n.children[i])
  {
    WalkSound(n, p, false, parse);
    forall e | e in Walk(n, p, false, parse).value
      ensures n.Dir? && exists i :: 0 <= i < |n.children| && e.path == ChildPath(p, n.children[i])
    {
      var route :| Discovered(n, p, false, parse, route, e);
      assert route[1..] == [];
      assert e.path == ChildPath(p, n.children[route[0]]);
    }
  }

  /** Without `recurse` the walk reads only the directory itself, so it fails
      exactly when that directory cannot be read. */
  lemma FlatWalkFailsOnlyOnUnreadableDir(n: Node, p: Path, parse: Parser)
    ensures Walk(n, p, false, parse).Failure? <==> n.Dir? && !n.readable
  {
    if n.Dir? && n.readable {
      FlatChildrenSucceed(n, p, |n.children|, parse);
    }
  }

  lemma {:induction false} FlatChildrenSucceed(n: Node, p: Path, k: nat, parse: Parser)
    requires n.Dir? && k <= |n.children|
    ensures WalkChildren(n, p, k, false, parse).Success?
    decreases k
  {
    if k > 0 {
      FlatChildrenSucceed(n, p, k - 1, parse);
    }
  }

  /** The node at `route` is a directory whose `read_dir` fails, and a
      recursive walk reaches it: every node along the route, itself included,
      is classified `Recurse`. The empty route names the walked node. */
  ghost predicate Blocked(n: Node, p: Path, parse: Parser, route: seq<nat>) {
    var loc := Locate(n, p, route);
    && loc.Some?
    && loc.value.0.Dir? && !loc.value.0.readable
    && (forall k :: 0 < k <= |route| ==> RecursesAt(n, p, route[..k], parse))
  }

  /** Peeling the first entry off a blocked route. */
  lemma BlockedStep(n: Node, p: Path, parse: Parser, route: seq<nat>)
    requires n.Dir? && |route| > 0 && route[0] < |n.children|
    ensures var c := n.children[route[0]];
            var cp := ChildPath(p, c);
            Blocked(n, p, parse, route) <==>
              CheckPath(c, cp, parse) == Recurse && Blocked(c, cp, parse, route[1..])
  {
    var c := n.children[route[0]];
    var cp := ChildPath(p, c);
    var rest := route[1..];
    assert Locate(n, p, route) == Locate(c, cp, rest);
    forall k | 0 < k <= |route|
      ensures RecursesAt(n, p, route[..k], parse) <==>
                (if k == 1 then CheckPath(c, cp, parse) == Recurse else RecursesAt(c, cp, rest[..k - 1], parse))
    {
      assert route[..k][1..] == rest[..k - 1];
      assert Locate(n, p, route[..k]) == Locate(c, cp, rest[..k - 1]);
    }
    if Blocked(n, p, parse, route) {
      assert RecursesAt(n, p, route[..1], parse);
      forall k | 0 < k <= |rest| ensures RecursesAt(c, cp, rest[..k], parse) {
        assert RecursesAt(n, p, route[..k + 1], parse);
      }
    }
    if CheckPath(c, cp, parse) == Recurse && Blocked(c, cp, parse, rest) {
      forall k | 0 < k <= |route| ensures RecursesAt(n, p, route[..k], parse) {
        if k > 1 {
          assert RecursesAt(c, cp, rest[..k - 1], parse);
        }
      }
    }
  }

  /** A recursive walk fails exactly when it reaches an unreadable directory:
      the walked node itself, or one below it reached only through `Recurse`
      directories. An unreadable directory below an ignored directory, a
      package or a file is never read. */
  lemma WalkFailsIffBlocked(n: Node, p: Path, parse: Parser)
    ensures Walk(n, p, true, parse).Failure? <==> exists route :: Blocked(n, p, parse, route)
  {
    if Walk(n, p, true, parse).Failure? {
      WalkFailureIsBlocked(n, p, parse);
    }
    if route :| Blocked(n, p, parse, route) {
      BlockedWalkFails(n, p, parse, route);
    }
  }

  lemma {:induction false} WalkFailureIsBlocked(n: Node, p: Path, parse: Parser)
    requires Walk(n, p, true, parse).Failure?
    ensures exists route :: Blocked(n, p, parse, route)
    decreases n, 1, 0
  {
    if n.readable {
      WalkChildrenFailureIsBlocked(n, p, |n.children|, parse);
    } else {
      assert Blocked(n, p, parse, []);
    }
  }

  lemma {:induction false} WalkChildrenFailureIsBlocked(n: Node, p: Path, k: nat, parse: Parser)
    requires n.Dir? && k <= |n.children|
    requires WalkChildren(n, p, k, true, parse).Failure?
    ensures exists route :: Blocked(n, p, parse, route)
    decreases n, 0, k
  {
    if WalkChildren(n, p, k - 1, true, parse).Failure? {
      WalkChildrenFailureIsBlocked(n, p, k - 1, parse);
    } else {
      var prior := WalkChildren(n, p, k - 1, true, parse).value;
      var c := n.children[k - 1];
      var cp := ChildPath(p, c);
      assert VisitChild(prior, c, cp, true, parse).Failure?;
      assert CheckPath(c, cp, parse) == Recurse && Walk(c, cp, true, parse).Failure?;
      WalkFailureIsBlocked(c, cp, parse);
      var inner :| Blocked(c, cp, parse, inner);
      var route := [k - 1] + inner;
      assert route[1..] == inner;
      BlockedStep(n, p, parse, route);
    }
  }

  lemma {:induction false} BlockedWalkFails(n: Node, p: Path, parse: Parser, route: seq<nat>)
    requires Blocked(n, p, parse, route)
    ensures Walk(n, p, true, parse).Failure?
    decreases n, 1, 0
  {
    if |route| > 0 {
      LocateThroughChild(n, p, route);
      if n.readable {
        BlockedChildrenFail(n, p, |n.children|, parse, route);
      }
    }
  }

  lemma {:induction false} BlockedChildrenFail(n: Node, p: Path, k: nat, parse: Parser, route: seq<nat>)
    requires n.Dir? && k <= |n.children|
    requires |route| > 0 && route[0] < k && Blocked(n, p, parse, route)
    ensures WalkChildren(n, p, k, true, parse).Failure?
    decreases n, 0, k
  {
    if route[0] < k - 1 {
      BlockedChildrenFail(n, p, k - 1, parse, route);
    } else if WalkChildren(n, p, k - 1, true, parse).Success? {
      var prior := WalkChildren(n, p, k - 1, true, parse).value;
      var c := n.children[k - 1];
      var cp := ChildPath(p, c);
      BlockedStep(n, p, parse, route);
      BlockedWalkFails(c, cp, parse, route[1..]);
      assert VisitChild(prior, c, cp, true, parse).Failure?;
    }
  }

  /** The walk never looks inside a directory it did not classify `Recurse`:
      in a well-formed tree, no package below an ignored directory, a file or
      an already found package is ever appended. */
  lemma WalkSkipsStoppedSubtrees(n: Node, p: Path, recurse: bool, parse: Parser, stop: seq<nat>)
    requires WellFormed(n)
    requires Walk(n, p, recurse, parse).Success?
    requires |stop| > 0 && Locate(n, p, stop).Some?
    requires CheckPath(Locate(n, p, stop).value.0, Locate(n, p, stop).value.1, parse) != Recurse
    ensures forall e :: e in Walk(n, p, recurse, parse).value ==>
              !IsProperPrefix(Locate(n, p, stop).value.1, e.path)
  {
    var dp := Locate(n, p, stop).value.1;
    WalkSound(n, p, recurse, parse);
    forall e | e in Walk(n, p, recurse, parse).value ensures !IsProperPrefix(dp, e.path) {
      var route :| Discovered(n, p, recurse, parse, route, e);
      if IsProperPrefix(dp, e.path) {
        LocatePrefixDeterminesRoute(n, p, stop, route);
        assert false;
      }
    }
  }

  /** Packages never nest in a walk's result: in a well-formed tree, when one
      appended package's path is a prefix of another's, they are the same entry. */
  lemma WalkFindsNoNestedPackages(n: Node, p: Path, recurse: bool, parse: Parser)
    requires WellFormed(n)
    requires Walk(n, p, recurse, parse).Success?
    ensures forall e1, e2 ::
              (&& e1 in Walk(n, p, recurse, parse).value
               && e2 in Walk(n, p, recurse, parse).value
               && |e1.path| <= |e2.path| && e1.path == e2.path[..|e1.path|])
              ==> e1 == e2
  {
    var out := Walk(n, p, recurse, parse).value;
    WalkSound(n, p, recurse, parse);
    forall e1, e2 | e1 in out && e2 in out && |e1.path| <= |e2.path| && e1.path == e2.path[..|e1.path|]
      ensures e1 == e2
    {
      var r1 :| Discovered(n, p, recurse, parse, r1, e1);
      var r2 :| Discovered(n, p, recurse, parse, r2, e2);
      DiscoveredNotNested(n, p, recurse, parse, r1, e1, r2, e2);
    }
  }

  /** Two discovered packages whose paths are prefix-related are one entry. */
  lemma DiscoveredNotNested(n: Node, p: Path, recurse: bool, parse: Parser,
                            r1: seq<nat>, e1: Entry, r2: seq<nat>, e2: Entry)
    requires WellFormed(n)
    requires Walk(n, p, recurse, parse).Success?
    requires e2 in Walk(n, p, recurse, parse).value
    requires Discovered(n, p, recurse, parse, r1, e1) && Discovered(n, p, recurse, parse, r2, e2)
    requires |e1.path| <= |e2.path| && e1.path == e2.path[..|e1.path|]
    ensures e1 == e2
  {
    var loc1 := Locate(n, p, r1).value;
    assert loc1.1 == e1.path;
    if |e1.path| < |e2.path| {
      WalkSkipsStoppedSubtrees(n, p, recurse, parse, r1);
      assert false;
    } else {
      LocatePrefixDeterminesRoute(n, p, r1, r2);
      assert r1 == r2;
    }
  }

  /** What `find_packages(dir, …)` appends lies strictly below `dir`, and only
      one level below it when `recurse` is off. */
  lemma FindFindsDescendants(env: Env, dir: Path, recurse: bool)
    requires Find(env, dir, recurse).Success?
    ensures forall e :: e in Find(env, dir, recurse).value ==>
              IsProperPrefix(dir, e.path) && (!recurse ==> |e.path| == |dir| + 1)
  {
    match env.resolve(dir)
    case None =>
    case Some(n) =>
      WalkFindsStrictDescendants(n, dir, recurse, env.parse);
      if !recurse {
        FlatWalkSeesOnlyEntries(n, dir, env.parse);
      }
  }
}

=== FILE: host.dfy ===
/** What the discovery engine asks of its host: the operating system's path
    resolution (`is_dir` / `read_dir` on a path), `canonicalize`, and the XML
    reader. The model treats all three as given functions. */
module Host {
  import opened Wrappers
  import opened Paths
  import opened Tree
  import opened Packages

  datatype Env = Env(
    resolve: Path -> Option<Node>,
    canonicalize: Path -> Option<Path>,
    parse: Parser)
}

=== FILE: listing.dfy ===
/** The `list` command: check the candidate paths, scan the base paths (or
    `.` when neither list is given), then print the sorted, de-duplicated
    entries in the projection the options ask for. */
module Listing {
  import opened Wrappers
  import opened Paths
  import opened Tree
  import opened Classify
  import opened Packages
  import opened Host
  import opened Scanner
  import opened Discovery
  import opened Dedup
  import opened Preprocess
  import opened Aggregate

  /** The options of `list` the core reads. */
  datatype ListArgs = ListArgs(
    namesOnly: bool,
    pathsOnly: bool,
    basePaths: seq<Path>,
    paths: seq<Path>)

  /** The fields of a line, split at every tab. */
  function Fields(s: string): (r: seq<string>)
    ensures |r| > 0
    decreases |s|
  {
    if |s| == 0 then [""]
    else
      var rest := Fields(s[1..]);
      if s[0] == '\t' then [""] + rest else [[s[0]] + rest[0]] + rest[1..]
  }

  lemma {:induction false} FieldsOfTabFree(a: string)
    requires NoTab(a)
    ensures Fields(a) == [a]
    decreases |a|
  {
    if |a| > 0 {
      FieldsOfTabFree(a[1..]);
      assert a == [a[0]] + a[1..];
    }
  }

  lemma {:induction false} FieldsAfterTab(a: string, b: string)
    requires NoTab(a)
    ensures Fields(a + "\t" + b) == [a] + Fields(b)
    decreases |a|
  {
    var s := a + "\t" + b;
    if |a| == 0 {
      assert s[0] == '\t' && s[1..] == b;
    } else {
      assert s[0] == a[0] && s[1..] == a[1..] + "\t" + b;
      FieldsAfterTab(a[1..], b);
      assert a == [a[0]] + a[1..];
    }
  }

  /** The line `Entry::print` writes: `name<TAB>path<TAB>(build_type)`. */
  function FullLine(e: Entry): string {
    e.pkg.name + "\t" + PathText(e.path) + "\t" + "(" + e.pkg.exports.buildType + ")"
  }

  /** A full line splits back into the entry's name, path and parenthesised
      build type when none of them holds a tab. */
  lemma FullLineReadsBack(e: Entry)
    ensures NoTab(e.pkg.name) && NoTabInNames(e.path) && NoTab(e.pkg.exports.buildType) ==>
              Fields(FullLine(e)) == [e.pkg.name, PathText(e.path), "(" + e.pkg.exports.buildType + ")"]
  {
    if NoTab(e.pkg.name) && NoTabInNames(e.path) && NoTab(e.pkg.exports.buildType) {
      var name := e.pkg.name;
      var path := PathText(e.path);
      var bt := "(" + e.pkg.exports.buildType + ")";
      PathTextHasNoTab(e.path);
      assert NoTab(bt);
      assert FullLine(e) == name + "\t" + (path + "\t" + bt);
      FieldsAfterTab(name, path + "\t" + bt);
      FieldsAfterTab(path, bt);
      FieldsOfTabFree(bt);
    }
  }

  /** `Entry::print_from_opts`: the name, else the path, else the full line,
      whose three fields read back as the entry's name, path and parenthesised
      build type when none holds a tab. */
  function Render(e: Entry, args: ListArgs): (line: string)
    ensures args.namesOnly ==> line == e.pkg.name
    ensures !args.namesOnly && args.pathsOnly ==> line == PathText(e.path)
    ensures (!args.namesOnly && !args.pathsOnly
              && NoTab(e.pkg.name) && NoTabInNames(e.path) && NoTab(e.pkg.exports.buildType))
              ==> Fields(line) == [e.pkg.name, PathText(e.path), "(" + e.pkg.exports.buildType + ")"]
  {
    FullLineReadsBack(e);
    if args.namesOnly then e.pkg.name
    else if args.pathsOnly then PathText(e.path)
    else FullLine(e)
  }

  /** The appends of `find_packages(root, …)` for each root in turn. */
  function ScanAll(env: Env, roots: seq<Path>, recurse: bool): Result<seq<Entry>, ScanError>
    decreases |roots|
  {
    if |roots| == 0 then Success([])
    else
      var prior :- ScanAll(env, roots[..|roots| - 1], recurse);
      var sub :- Find(env, roots[|roots| - 1], recurse);
      Success(prior + sub)
  }

  lemma {:induction false} ScanAllFailurePersists(env: Env, roots: seq<Path>, k: nat, recurse: bool)
    requires k <= |roots|
    requires ScanAll(env, roots[..k], recurse).Failure?
    ensures ScanAll(env, roots, recurse) == ScanAll(env, roots[..k], recurse)
    decreases |roots| - k
  {
    if k < |roots| {
      var init := roots[..|roots| - 1];
      assert init[..k] == roots[..k];
      ScanAllFailurePersists(env, init, k, recurse);
    } else {
      assert roots[..k] == roots;
    }
  }

  /** Every entry a scan of several roots appends lies strictly below one of
      them, and one level below it when `recurse` is off. */
  lemma {:induction false} ScanAllFindsDescendants(env: Env, roots: seq<Path>, recurse: bool)
    requires ScanAll(env, roots, recurse).Success?
    ensures forall e :: e in ScanAll(env, roots, recurse).value ==>
              exists i :: 0 <= i < |roots| && IsProperPrefix(roots[i], e.path)
                          && (!recurse ==> |e.path| == |roots[i]| + 1)
    decreases |roots|
  {
    if |roots| > 0 {
      var init := roots[..|roots| - 1];
      var last := roots[|roots| - 1];
      ScanAllFindsDescendants(env, init, recurse);
      FindFindsDescendants(env, last, recurse);
      forall e | e in ScanAll(env, roots, recurse).value
        ensures exists i :: 0 <= i < |roots| && IsProperPrefix(roots[i], e.path)
                            && (!recurse ==> |e.path| == |roots[i]| + 1)
      {
        if e in ScanAll(env, init, recurse).value {
          var i :| 0 <= i < |init| && IsProperPrefix(init[i], e.path)
                   && (!recurse ==> |e.path| == |init[i]| + 1);
          assert roots[i] == init[i];
        } else {
          assert roots[|roots| - 1] == last;
        }
      }
    }
  }

  /** The directories scanned recursively: the preprocessed base paths, or
      `.` alone when no candidate and no base path was given. */
  function BaseRoots(canon: Path -> Option<Path>, unique: seq<Path>, basePaths: seq<Path>): seq<Path> {
    if |unique| == 0 && |basePaths| == 0 then [[CurDir]]
    else PreprocessPaths(canon, basePaths)
  }

  /** With no candidate and no base path, only `.` is scanned, recursively. */
  lemma DefaultScan(env: Env, args: ListArgs)
    ensures |args.paths| == 0 && |args.basePaths| == 0 ==>
              var unique := PreprocessPaths(env.canonicalize, args.paths);
              && ScanAll(env, unique, false) == Success([])
              && ScanAll(env, BaseRoots(env.canonicalize, unique, args.basePaths), true) ==
                   Find(env, [CurDir], true)
  {
    if |args.paths| == 0 && |args.basePaths| == 0 {
      var roots := [[CurDir]];
      assert BaseRoots(env.canonicalize, PreprocessPaths(env.canonicalize, args.paths), args.basePaths) == roots;
      assert roots[..0] == [] && roots[0] == [CurDir];
      var found := Find(env, [CurDir], true);
      assert found.Success? ==> [] + found.value == found.value;
      assert ScanAll(env, roots, true) == found;
    }
  }

  /** Everything `main` gathers before sorting: the flat check of each
      candidate path, then the recursive scan of the base roots. When both
      lists are empty this is a recursive scan of `.`. */
  function Collect(env: Env, args: ListArgs): (r: Result<seq<Entry>, ScanError>)
    ensures |args.paths| == 0 && |args.basePaths| == 0 ==> r == Find(env, [CurDir], true)
  {
    var unique := PreprocessPaths(env.canonicalize, args.paths);
    var roots := BaseRoots(env.canonicalize, unique, args.basePaths);
    var checked := ScanAll(env, unique, false);
    var scanned := ScanAll(env, roots, true);
    DefaultScan(env, args);
    if checked.Failure? then Failure(checked.error)
    else if scanned.Failure? then Failure(scanned.error)
    else
      assert [] + scanned.value == scanned.value;
      Success(checked.value + scanned.value)
  }

  /** Every entry gathered lies one level below a preprocessed candidate path
      or strictly below a base root. */
  lemma CollectFindsDescendants(env: Env, args: ListArgs)
    ensures Collect(env, args).Success? ==> forall e :: e in Collect(env, args).value ==>
              || (exists q :: q in PreprocessPaths(env.canonicalize, args.paths)
                    && IsProperPrefix(q, e.path) && |e.path| == |q| + 1)
              || (exists q :: q in BaseRoots(env.canonicalize, PreprocessPaths(env.canonicalize, args.paths), args.basePaths)
                    && IsProperPrefix(q, e.path))
  {
    var unique := PreprocessPaths(env.canonicalize, args.paths);
    var roots := BaseRoots(env.canonicalize, unique, args.basePaths);
    var checked := ScanAll(env, unique, false);
    var scanned := ScanAll(env, roots, true);
    if !(checked.Success? && scanned.Success?) {
      return;
    }
    assert Collect(env, args).value == checked.value + scanned.value;
    ScanAllFindsDescendants(env, unique, false);
    ScanAllFindsDescendants(env, roots, true);
    forall e | e in Collect(env, args).value
      ensures || (exists q :: q in unique && IsProperPrefix(q, e.path) && |e.path| == |q| + 1)
              || (exists q :: q in roots && IsProperPrefix(q, e.path))
    {
      if e in checked.value {
        var i :| 0 <= i < |unique| && IsProperPrefix(unique[i], e.path) && |e.path| == |unique[i]| + 1;
        assert unique[i] in unique;
      } else {
        assert e in scanned.value;
        var i :| 0 <= i < |roots| && IsProperPrefix(roots[i], e.path);
        assert roots[i] in roots;
      }
    }
  }

  /** Soundness across roots: every entry a successful scan of several roots
      gathers is a package discovered below one of them. */
  lemma {:induction false} ScanAllSound(env: Env, roots: seq<Path>, recurse: bool)
    requires ScanAll(env, roots, recurse).Success?
    ensures forall e :: e in ScanAll(env, roots, recurse).value ==>
              exists i, n, route :: 0 <= i < |roots| && env.resolve(roots[i]) == Some(n)
                                    && Discovered(n, roots[i], recurse, env.parse, route, e)
    decreases |roots|
  {
    if |roots| > 0 {
      var init := roots[..|roots| - 1];
      var last := roots[|roots| - 1];
      ScanAllSound(env, init, recurse);
      var prior := ScanAll(env, init, recurse).value;
      var sub := Find(env, last, recurse).value;
      assert ScanAll(env, roots, recurse).value == prior + sub;
      forall e | e in ScanAll(env, roots, recurse).value
        ensures exists i, n, route :: 0 <= i < |roots| && env.resolve(roots[i]) == Some(n)
                                      && Discovered(n, roots[i], recurse, env.parse, route, e)
      {
        if e in prior {
          var i, n, route :| 0 <= i < |init| && env.resolve(init[i]) == Some(n)
                             && Discovered(n, init[i], recurse, env.parse, route, e);
          assert roots[i] == init[i];
        } else {
          assert e in sub;
          var n := env.resolve(last).value;
          WalkSound(n, last, recurse, env.parse);
          var route :| Discovered(n, last, recurse, env.parse, route, e);
          assert roots[|roots| - 1] == last;
        }
      }
    }
  }

  /** Every entry gathered is a package discovered by the flat check of a
      preprocessed candidate or by the recursive scan of a base root: each
      printed line comes from a real package. */
  lemma CollectSound(env: Env, args: ListArgs, e: Entry)
    ensures Collect(env, args).Success? && e in Collect(env, args).value ==>
              var unique := PreprocessPaths(env.canonicalize, args.paths);
              var roots := BaseRoots(env.canonicalize, unique, args.basePaths);
              || (exists i, n, route :: 0 <= i < |unique| && env.resolve(unique[i]) == Some(n)
                                        && Discovered(n, unique[i], false, env.parse, route, e))
              || (exists i, n, route :: 0 <= i < |roots| && env.resolve(roots[i]) == Some(n)
                                        && Discovered(n, roots[i], true, env.parse, route, e))
  {
    var unique := PreprocessPaths(env.canonicalize, args.paths);
    var roots := BaseRoots(env.canonicalize, unique, args.basePaths);
    var checked := ScanAll(env, unique, false);
    var scanned := ScanAll(env, roots, true);
    if !(Collect(env, args).Success? && e in Collect(env, args).value) {
      return;
    }
    assert checked.Success? && scanned.Success?;
    assert Collect(env, args).value == checked.value + scanned.value;
    ScanAllSound(env, unique, false);
    ScanAllSound(env, roots, true);
  }

  /** A successful scan of several roots holds everything each root's
      `find_packages` appends. */
  lemma {:induction false} ScanAllHasFind(env: Env, roots: seq<Path>, recurse: bool, i: nat)
    requires i < |roots| && ScanAll(env, roots, recurse).Success?
    ensures Find(env, roots[i], recurse).Success?
    ensures forall e :: e in Find(env, roots[i], recurse).value ==> e in ScanAll(env, roots, recurse).value
    decreases |roots|
  {
    var init := roots[..|roots| - 1];
    if i < |roots| - 1 {
      assert init[i] == roots[i];
      ScanAllHasFind(env, init, recurse, i);
    }
  }

  /** Completeness across roots: every package a flat check of a candidate
      path discovers, and every package a recursive scan of a base root
      discovers, is gathered when the command succeeds. */
  lemma CollectComplete(env: Env, args: ListArgs, q: Path, n: Node, route: seq<nat>, e: Entry)
    ensures && Collect(env, args).Success?
            && q in PreprocessPaths(env.canonicalize, args.paths)
            && env.resolve(q) == Some(n)
            && Discovered(n, q, false, env.parse, route, e)
            ==> e in Collect(env, args).value
    ensures && Collect(env, args).Success?
            && q in BaseRoots(env.canonicalize, PreprocessPaths(env.canonicalize, args.paths), args.basePaths)
            && env.resolve(q) == Some(n)
            && Discovered(n, q, true, env.parse, route, e)
            ==> e in Collect(env, args).value
  {
    var unique := PreprocessPaths(env.canonicalize, args.paths);
    var roots := BaseRoots(env.canonicalize, unique, args.basePaths);
    var checked := ScanAll(env, unique, false);
    var scanned := ScanAll(env, roots, true);
    if !(Collect(env, args).Success? && env.resolve(q) == Some(n)) {
      return;
    }
    assert checked.Success? && scanned.Success?;
    assert Collect(env, args).value == checked.value + scanned.value;
    if q in unique && Discovered(n, q, false, env.parse, route, e) {
      var i :| 0 <= i < |unique| && unique[i] == q;
      ScanAllHasFind(env, unique, false, i);
      WalkComplete(n, q, false, env.parse, route, e);
      assert e in checked.value;
    }
    if q in roots && Discovered(n, q, true, env.parse, route, e) {
      var i :| 0 <= i < |roots| && roots[i] == q;
      ScanAllHasFind(env, roots, true, i);
      WalkComplete(n, q, true, env.parse, route, e);
      assert e in scanned.value;
    }
  }

  /** A candidate path that is itself a package is not reported by its own
      flat check: `find_packages` classifies only the entries below it. */
  lemma CandidateItselfNotChecked(env: Env, q: Path, n: Node, e: Entry)
    requires env.resolve(q) == Some(n) && CheckPath(n, q, env.parse) == Found(e)
    ensures Find(env, q, false).Success? ==> e !in Find(env, q, false).value
  {
    if Find(env, q, false).Success? {
      FindFindsDescendants(env, q, false);
    }
  }

  /** The printed lines: the aggregated entries, each rendered. */
  function Lines(entries: seq<Entry>, args: ListArgs): seq<string> {
    var sorted := SortDedup(entries);
    seq(|sorted|, i requires 0 <= i < |sorted| => Render(sorted[i], args))
  }

  /** Line `i` renders entry `i` of the aggregated entries. */
  lemma LinesAreRendered(entries: seq<Entry>, args: ListArgs)
    ensures |Lines(entries, args)| == |SortDedup(entries)|
    ensures forall i :: 0 <= i < |Lines(entries, args)| ==>
              Lines(entries, args)[i] == Render(SortDedup(entries)[i], args)
  {
  }

  /** Every printed line renders an entry that was found. */
  lemma LinesRenderFoundEntries(entries: seq<Entry>, args: ListArgs)
    ensures forall i :: 0 <= i < |Lines(entries, args)| ==>
              exists e :: e in entries && Lines(entries, args)[i] == Render(e, args)
  {
    var sorted := SortDedup(entries);
    var r := Lines(entries, args);
    LinesAreRendered(entries, args);
    forall i | 0 <= i < |r|
      ensures exists e :: e in entries && r[i] == Render(e, args)
    {
      assert sorted[i] in entries;
      assert r[i] == Render(sorted[i], args);
    }
  }

  /** Every `(name, path)` pair found is rendered on some line. */
  lemma LinesCoverFoundKeys(entries: seq<Entry>, args: ListArgs)
    ensures forall e :: e in entries ==>
              exists i :: 0 <= i < |Lines(entries, args)|
                          && Lines(entries, args)[i] == Render(SortDedup(entries)[i], args)
                          && Key(SortDedup(entries)[i]) == Key(e)
  {
    var sorted := SortDedup(entries);
    var r := Lines(entries, args);
    LinesAreRendered(entries, args);
    forall e | e in entries
      ensures exists i :: 0 <= i < |r| && r[i] == Render(sorted[i], args) && Key(sorted[i]) == Key(e)
    {
      var k :| 0 <= k < |entries| && entries[k] == e;
      assert HasKey(sorted, Key, Key(entries[k]));
      var i :| 0 <= i < |sorted| && Key(sorted[i]) == Key(e);
      assert r[i] == Render(sorted[i], args);
    }
  }

  /** The whole `list` command, from arguments to printed lines. */
  function List(env: Env, args: ListArgs): Result<seq<string>, ScanError> {
    var entries :- Collect(env, args);
    Success(Lines(entries, args))
  }

  /** A `for` loop of `main`: `find_packages(root, &mut res, recurse)?` for each root. */
  method ScanRoots(env: Env, roots: seq<Path>, results: seq<Entry>, recurse: bool)
    returns (r: Result<seq<Entry>, ScanError>)
    ensures r == Append(results, ScanAll(env, roots, recurse))
    ensures r.Success? ==> results <= r.value
  {
    var res := results;
    var i := 0;
    assert res[|results|..] == [];
    while i < |roots|
      invariant i <= |roots|
      invariant results <= res
      invariant ScanAll(env, roots[..i], recurse) == Success(res[|results|..])
    {
      var step := FindPackages(env, roots[i], res, recurse);
      assert roots[..i + 1][..i] == roots[..i] && roots[..i + 1][i] == roots[i];
      if step.Failure? {
        ScanAllFailurePersists(env, roots, i + 1, recurse);
        return Failure(step.error);
      }
      assert step.value[|results|..] == res[|results|..] + Find(env, roots[i], recurse).value;
      res := step.value;
      i := i + 1;
    }
    assert roots[..i] == roots;
    assert res == results + res[|results|..];
    return Success(res);
  }

  /** `Collect` as two appends: the flat checks, then the recursive scans. */
  lemma CollectSplits(env: Env, args: ListArgs)
    ensures var unique := PreprocessPaths(env.canonicalize, args.paths);
            var checked := ScanAll(env, unique, false);
            Collect(env, args) ==
              if checked.Failure? then Failure(checked.error)
              else Append(checked.value, ScanAll(env, BaseRoots(env.canonicalize, unique, args.basePaths), true))
  {
  }

  /** `main` for the `list` command, written as the source does it. */
  method RunList(env: Env, args: ListArgs) returns (r: Result<seq<string>, ScanError>)
    ensures r == List(env, args)
  {
    var unique := PreprocessPaths(env.canonicalize, args.paths);
    var checked := ScanRoots(env, unique, [], false);
    CollectSplits(env, args);
    if checked.Failure? {
      return Failure(checked.error);
    }
    assert ScanAll(env, unique, false) == Success(checked.value) by {
      assert [] + ScanAll(env, unique, false).value == ScanAll(env, unique, false).value;
    }
    var roots := if |unique| == 0 && |args.basePaths| == 0 then [[CurDir]]
                 else PreprocessPaths(env.canonicalize, args.basePaths);
    assert roots == BaseRoots(env.canonicalize, unique, args.basePaths);
    var all := ScanRoots(env, roots, checked.value, true);
    if all.Failure? {
      return Failure(all.error);
    }
    return Success(Lines(all.value, args));
  }
}

=== FILE: orders.dfy ===
/** Strict total orders and the lexicographic extension of one to sequences.
    Rust's `Ord` for `String`, for `Path` (component by component) and for
    tuples are all lexicographic, so they are all instances of `LexLess`. */
module Orders {

  ghost predicate StrictTotalOrder<T(!new)>(less: (T, T) -> bool) {
    && (forall x :: !less(x, x))
    && (forall x, y, z :: less(x, y) && less(y, z) ==> less(x, z))
    && (forall x, y :: x != y ==> less(x, y) || less(y, x))
  }

  /** `a` sorts before `b`: the first differing element decides, and a proper
      prefix sorts before any of its extensions. */
  function LexLess<T(==)>(a: seq<T>, b: seq<T>, less: (T, T) -> bool): bool
    decreases |a|
  {
    if |a| == 0 then |b| > 0
    else if |b| == 0 then false
    else less(a[0], b[0]) || (a[0] == b[0] && LexLess(a[1..], b[1..], less))
  }

  lemma {:induction false} LexIrreflexive<T(!new)>(a: seq<T>, less: (T, T) -> bool)
    requires StrictTotalOrder(less)
    ensures !LexLess(a, a, less)
    decreases |a|
  {
    if |a| > 0 {
      LexIrreflexive(a[1..], less);
    }
  }

  lemma {:induction false} LexTransitive<T(!new)>(a: seq<T>, b: seq<T>, c: seq<T>, less: (T, T) -> bool)
    requires StrictTotalOrder(less)
    requires LexLess(a, b, less) && LexLess(b, c, less)
    ensures LexLess(a, c, less)
    decreases |a|
  {
    if |a| > 0 && a[0] == b[0] && b[0] == c[0] {
      LexTransitive(a[1..], b[1..], c[1..], less);
    }
  }

  lemma {:induction false} LexTotal<T(!new)>(a: seq<T>, b: seq<T>, less: (T, T) -> bool)
    requires StrictTotalOrder(less)
    requires a != b
    ensures LexLess(a, b, less) || LexLess(b, a, less)
    decreases |a|
  {
    if |a| > 0 && |b| > 0 && a[0] == b[0] {
      assert a == [a[0]] + a[1..] && b == [b[0]] + b[1..];
      LexTotal(a[1..], b[1..], less);
    }
  }

  /** The lexicographic extension of a strict total order is one. */
  lemma LexIsStrictTotal<T(!new)>(less: (T, T) -> bool)
    requires StrictTotalOrder(less)
    ensures StrictTotalOrder((a: seq<T>, b: seq<T>) => LexLess(a, b, less))
  {
    forall a: seq<T> ensures !LexLess(a, a, less) {
      LexIrreflexive(a, less);
    }
    forall a: seq<T>, b: seq<T>, c: seq<T> | LexLess(a, b, less) && LexLess(b, c, less)
      ensures LexLess(a, c, less)
    {
      LexTransitive(a, b, c, less);
    }
    forall a: seq<T>, b: seq<T> | a != b
      ensures LexLess(a, b, less) || LexLess(b, a, less)
    {
      LexTotal(a, b, less);
    }
  }
}

=== FILE: packages.dfy ===
/** Package descriptors and discovered entries, with the defaults the manifest
    deserialiser applies when the `export` element or its `build_type` is absent. */
module Packages {
  import opened Wrappers
  import opened Paths

  /** The build type of a manifest that does not name one. */
  const DefaultBuildType: string := "ros.catkin"

  datatype Export = Export(buildType: string)

  datatype Package = Package(name: string, exports: Export)

  /** A package found on disk, at the directory that holds its manifest. */
  datatype Entry = Entry(pkg: Package, path: Path)

  /** What a `package.xml` document contains before defaults are applied: its
      `name`, and the `export` element with its optional `build_type`, if any. */
  datatype ExportElement = ExportElement(buildType: Option<string>)
  datatype Manifest = Manifest(name: string, exports: Option<ExportElement>)

  /** The XML reader: `None` when the file cannot be read or deserialised. */
  type Parser = string -> Option<Manifest>

  function DefaultExport(): Export {
    Export(DefaultBuildType)
  }

  /** Deserialisation with defaults: a missing `export`, or an `export`
      without `build_type`, yields the default build type; an explicit one is
      kept verbatim, and the name is carried over. */
  function ToPackage(m: Manifest): (p: Package)
    ensures p.name == m.name
    ensures m.exports.None? ==> p.exports.buildType == DefaultBuildType
    ensures m.exports.Some? && m.exports.value.buildType.None? ==> p.exports.buildType == DefaultBuildType
    ensures m.exports.Some? && m.exports.value.buildType.Some? ==> p.exports.buildType == m.exports.value.buildType.value
  {
    match m.exports
    case None => Package(m.name, DefaultExport())
    case Some(e) =>
      match e.buildType
      case None => Package(m.name, DefaultExport())
      case Some(t) => Package(m.name, Export(t))
  }

  /** The manifest that states every field of `p` explicitly. */
  function Describe(p: Package): Manifest {
    Manifest(p.name, Some(ExportElement(Some(p.exports.buildType))))
  }

  /** Every package is the reading of some manifest, and defaulting loses
      nothing that was written: reading back a fully explicit manifest returns
      the package it describes. */
  lemma DescribeRoundTrip(p: Package)
    ensures ToPackage(Describe(p)) == p
  {
  }

  /** Writing the default build type explicitly is indistinguishable from
      leaving it out, whichever way it is left out. */
  lemma OmittedBuildTypeIsDefault(name: string)
    ensures ToPackage(Manifest(name, None)) == ToPackage(Manifest(name, Some(ExportElement(None))))
    ensures ToPackage(Manifest(name, None)) == ToPackage(Manifest(name, Some(ExportElement(Some(DefaultBuildType)))))
  {
  }
}

=== FILE: paths.dfy ===
/** Filesystem paths as Rust's `std::path` sees them: a sequence of components.
    Equality and ordering of `Path` values in Rust are component-wise, so a path
    is modelled by its components rather than by its spelling. */
module Paths {
  import opened Wrappers
  import opened Orders

  /** The components a Unix path can have; the declaration order is Rust's, and
      the derived order on `Component` follows it (a Windows prefix is not modelled). */
  datatype Component = RootDir | CurDir | ParentDir | Normal(name: string)

  type Path = seq<Component>

  function CharLess(x: char, y: char): bool {
    x < y
  }

  /** Rust's `Ord` on `String` and `OsStr`: lexicographic by code point. */
  function StringLess(a: string, b: string): bool {
    LexLess(a, b, CharLess)
  }

  function Rank(c: Component): nat {
    match c
    case RootDir => 0
    case CurDir => 1
    case ParentDir => 2
    case Normal(_) => 3
  }

  /** The derived `Ord` of Rust's `Component`: variant first, then the name. */
  function ComponentLess(x: Component, y: Component): bool {
    Rank(x) < Rank(y) || (x.Normal? && y.Normal? && StringLess(x.name, y.name))
  }

  /** Rust's `Ord` on `Path`: lexicographic over the components. */
  function PathLess(a: Path, b: Path): bool {
    LexLess(a, b, ComponentLess)
  }

  lemma StringLessIsStrictTotal()
    ensures StrictTotalOrder(StringLess)
  {
    assert StrictTotalOrder(CharLess);
    forall a: string ensures !StringLess(a, a) {
      LexIrreflexive(a, CharLess);
    }
    forall a: string, b: string, c: string | StringLess(a, b) && StringLess(b, c)
      ensures StringLess(a, c)
    {
      LexTransitive(a, b, c, CharLess);
    }
    forall a: string, b: string | a != b
      ensures StringLess(a, b) || StringLess(b, a)
    {
      LexTotal(a, b, CharLess);
    }
  }

  lemma ComponentLessIsStrictTotal()
    ensures StrictTotalOrder(ComponentLess)
  {
    StringLessIsStrictTotal();
  }

  lemma PathLessIsStrictTotal()
    ensures StrictTotalOrder(PathLess)
  {
    ComponentLessIsStrictTotal();
    forall a: Path ensures !PathLess(a, a) {
      LexIrreflexive(a, ComponentLess);
    }
    forall a: Path, b: Path, c: Path | PathLess(a, b) && PathLess(b, c)
      ensures PathLess(a, c)
    {
      LexTransitive(a, b, c, ComponentLess);
    }
    forall a: Path, b: Path | a != b
      ensures PathLess(a, b) || PathLess(b, a)
    {
      LexTotal(a, b, ComponentLess);
    }
  }

  /** `Path::file_name`: the last component when it is a normal name; `None`
      for `/`, for `.` and for a path ending in `..`. */
  function FileName(p: Path): (r: Option<string>)
    ensures r.Some? <==> |p| > 0 && p[|p| - 1].Normal?
    ensures r.Some? ==> p == p[..|p| - 1] + [Normal(r.value)]
  {
    if |p| > 0 && p[|p| - 1].Normal? then Some(p[|p| - 1].name) else None
  }

  /** `dir.join(name)` for a single directory-entry name. */
  function Join(dir: Path, name: string): (r: Path)
    ensures FileName(r) == Some(name)
    ensures IsProperPrefix(dir, r) && |r| == |dir| + 1
  {
    dir + [Normal(name)]
  }

  predicate IsProperPrefix(a: Path, b: Path) {
    |a| < |b| && a == b[..|a|]
  }

  function ComponentText(c: Component): string {
    match c
    case RootDir => ""
    case CurDir => "."
    case ParentDir => ".."
    case Normal(n) => n
  }

  function JoinTexts(p: Path): string
    decreases |p|
  {
    if |p| == 0 then ""
    else if |p| == 1 then ComponentText(p[0])
    else JoinTexts(p[..|p| - 1]) + "/" + ComponentText(p[|p| - 1])
  }

  /** The text `to_string_lossy` shows for a path, spelled from its components
      with `/` between them (`/a/b`, `./a`, and `/` for the root alone). */
  function PathText(p: Path): string {
    if p == [RootDir] then "/" else JoinTexts(p)
  }

  predicate NoTab(s: string) {
    forall i :: 0 <= i < |s| ==> s[i] != '\t'
  }

  predicate NoTabInNames(p: Path) {
    forall i :: 0 <= i < |p| ==> NoTab(ComponentText(p[i]))
  }

  lemma {:induction false} JoinTextsHasNoTab(p: Path)
    requires NoTabInNames(p)
    ensures NoTab(JoinTexts(p))
    decreases |p|
  {
    if |p| > 1 {
      JoinTextsHasNoTab(p[..|p| - 1]);
      assert NoTab(ComponentText(p[|p| - 1]));
    } else if |p| == 1 {
      assert NoTab(ComponentText(p[0]));
    }
  }

  /** A path whose names carry no tab renders without a tab, so it can be one
      tab-separated field of a listing line. */
  lemma PathTextHasNoTab(p: Path)
    requires NoTabInNames(p)
    ensures NoTab(PathText(p))
  {
    JoinTextsHasNoTab(p);
  }
}

=== FILE: preprocess.dfy ===
/** `preprocess_paths`: drop adjacent repeats, canonicalize each path (keeping
    it as given when that fails), and drop adjacent repeats again. */
module Preprocess {
  import opened Wrappers
  import opened Paths
  import opened Dedup

  /** `p.canonicalize().unwrap_or(p.clone())`. */
  function CanonicalOrSelf(canon: Path -> Option<Path>, p: Path): Path {
    match canon(p)
    case Some(q) => q
    case None => p
  }

  function Canonicalizer(canon: Path -> Option<Path>): Path -> Path {
    p => CanonicalOrSelf(canon, p)
  }

  /** The paths to scan, in the order given: no two neighbours equal, each the
      canonical form (or, failing that, the spelling) of an input path, and
      every input path represented. */
  function PreprocessPaths(canon: Path -> Option<Path>, raw: seq<Path>): (r: seq<Path>)
    ensures NoAdjacentDuplicates(r, Id)
    ensures |r| == 0 <==> |raw| == 0
    ensures forall q :: q in r ==> exists p :: p in raw && q == CanonicalOrSelf(canon, p)
    ensures forall p :: p in raw ==> CanonicalOrSelf(canon, p) in r
  {
    var once := DedupBy(raw, Id);
    var mapped := Map(Canonicalizer(canon), once);
    var r := DedupBy(mapped, Id);
    DedupByKeepsEveryKey(raw, Id);
    DedupByKeepsEveryKey(mapped, Id);
    assert forall p :: p in raw ==> CanonicalOrSelf(canon, p) in r by {
      forall p | p in raw ensures CanonicalOrSelf(canon, p) in r {
        var i :| 0 <= i < |raw| && raw[i] == p;
        assert HasKey(once, Id, Id(raw[i]));
        var j :| 0 <= j < |once| && Id(once[j]) == Id(raw[i]);
        assert mapped[j] == CanonicalOrSelf(canon, p);
        assert HasKey(r, Id, Id(mapped[j]));
      }
    }
    assert forall q :: q in r ==> exists p :: p in raw && q == CanonicalOrSelf(canon, p) by {
      forall q | q in r ensures exists p :: p in raw && q == CanonicalOrSelf(canon, p) {
        var i :| 0 <= i < |mapped| && mapped[i] == q;
        assert once[i] in raw;
      }
    }
    r
  }

  /** The first pass is only a shortcut: the result is the canonical forms of
      all input paths, in input order, with adjacent repeats dropped. */
  lemma FirstPassIsRedundant(canon: Path -> Option<Path>, raw: seq<Path>)
    ensures PreprocessPaths(canon, raw) == DedupBy(Map(Canonicalizer(canon), raw), Id)
  {
    DedupBeforeMap(Canonicalizer(canon), raw);
  }

  /** The order of first occurrence is kept: the result is the canonical form
      of each input path that starts a run of equal canonical forms, in input
      order. */
  lemma PreprocessKeepsFirstOfRuns(canon: Path -> Option<Path>, raw: seq<Path>)
    ensures PreprocessPaths(canon, raw) == RunHeads(Map(Canonicalizer(canon), raw), Id)
  {
    FirstPassIsRedundant(canon, raw);
    DedupByIsRunHeads(Map(Canonicalizer(canon), raw), Id);
  }

  /** `canonicalize` returns paths it leaves unchanged. */
  ghost predicate CanonicalIsStable(canon: Path -> Option<Path>) {
    forall p :: canon(p).Some? ==> canon(canon(p).value) == canon(p)
  }

  /** Under a stable `canonicalize`, every path preprocessing yields is a
      fixed point of canonicalize-or-keep. */
  lemma PreprocessedPathsAreFixed(canon: Path -> Option<Path>, raw: seq<Path>)
    requires CanonicalIsStable(canon)
    ensures forall q :: q in PreprocessPaths(canon, raw) ==> Canonicalizer(canon)(q) == q
  {
    forall q | q in PreprocessPaths(canon, raw) ensures Canonicalizer(canon)(q) == q {
      var p :| p in raw && q == CanonicalOrSelf(canon, p);
    }
  }

  /** With a stable `canonicalize`, preprocessing an already preprocessed list
      changes nothing. */
  lemma PreprocessIdempotent(canon: Path -> Option<Path>, raw: seq<Path>)
    requires CanonicalIsStable(canon)
    ensures PreprocessPaths(canon, PreprocessPaths(canon, raw)) == PreprocessPaths(canon, raw)
  {
    var r := PreprocessPaths(canon, raw);
    FirstPassIsRedundant(canon, r);
    PreprocessedPathsAreFixed(canon, raw);
    MapFixedPoints(Canonicalizer(canon), r);
    DedupByIdentity(r, Id);
  }
}

=== FILE: tree.dfy ===
/** The filesystem as an immutable tree. A directory lists its entries in the
    order `read_dir` yields them; `readable` is false when `read_dir` on it fails.
    Symbolic links are not represented: a link to a directory that `is_dir`
    follows is indistinguishable here from a copy of the target. */
module Tree {
  import opened Wrappers
  import opened Paths

  datatype Node =
    | Dir(name: string, readable: bool, children: seq<Node>)
    | File(name: string, content: string)

  /** The first entry of `entries` called `name`; what `dir.join(name)` refers to. */
  function ChildNamed(entries: seq<Node>, name: string): (r: Option<Node>)
    ensures r.Some? <==> exists i :: 0 <= i < |entries| && entries[i].name == name
    ensures r.Some? ==> r.value in entries && r.value.name == name
    decreases |entries|
  {
    if |entries| == 0 then None
    else if entries[0].name == name then Some(entries[0])
    else ChildNamed(entries[1..], name)
  }

  /** `dir.join(name).exists()`, for a file or a directory alike. */
  predicate HasChild(dir: Node, name: string) {
    dir.Dir? && ChildNamed(dir.children, name).Some?
  }

  /** `entry.path()` for a directory entry `child` listed under `dir`. */
  function ChildPath(dir: Path, child: Node): Path {
    Join(dir, child.name)
  }

  /** A real directory never lists two entries with the same name. */
  ghost predicate WellFormed(n: Node)
    decreases n
  {
    n.Dir? ==>
      && (forall i, j :: 0 <= i < j < |n.children| ==> n.children[i].name != n.children[j].name)
      && (forall i :: 0 <= i < |n.children| ==> WellFormed(n.children[i]))
  }

  /** The node reached from `n` (at path `p`) by following entry indices
      `route`, with its path; `None` when the route leaves the tree. */
  function Locate(n: Node, p: Path, route: seq<nat>): (r: Option<(Node, Path)>)
    ensures r.Some? ==> IsProperPrefix(p, r.value.1) || (route == [] && r.value.1 == p)
    ensures r.Some? ==> |r.value.1| == |p| + |route|
    decreases |route|
  {
    if |route| == 0 then Some((n, p))
    else if n.Dir? && route[0] < |n.children| then
      var c := n.children[route[0]];
      Locate(c, ChildPath(p, c), route[1..])
    else None
  }

  lemma {:induction false} LocateThroughChild(n: Node, p: Path, route: seq<nat>)
    requires |route| > 0 && Locate(n, p, route).Some?
    ensures n.Dir? && route[0] < |n.children|
    ensures Locate(n, p, route).value.1[..|p| + 1] == ChildPath(p, n.children[route[0]])
  {
    var c := n.children[route[0]];
    var q := Locate(c, ChildPath(p, c), route[1..]).value.1;
    assert ChildPath(p, c) == q[..|p| + 1];
  }

  /** In a well-formed tree a located path determines its route: if one located
      path is a prefix of another, so is the one route of the other. */
  lemma {:induction false} LocatePrefixDeterminesRoute(n: Node, p: Path, r1: seq<nat>, r2: seq<nat>)
    requires WellFormed(n)
    requires Locate(n, p, r1).Some? && Locate(n, p, r2).Some?
    requires |r1| <= |r2|
    requires Locate(n, p, r1).value.1 == Locate(n, p, r2).value.1[..|p| + |r1|]
    ensures r1 == r2[..|r1|]
    decreases |r1|
  {
    if |r1| > 0 {
      var q1 := Locate(n, p, r1).value.1;
      var q2 := Locate(n, p, r2).value.1;
      LocateThroughChild(n, p, r1);
      LocateThroughChild(n, p, r2);
      var c1 := n.children[r1[0]];
      var c2 := n.children[r2[0]];
      assert q1[..|p| + 1] == q2[..|p| + 1];
      assert q1[|p|] == Normal(c1.name) && q2[|p|] == Normal(c2.name);
      assert r1[0] == r2[0];
      var cp := ChildPath(p, c1);
      assert Locate(n, p, r1) == Locate(c1, cp, r1[1..]);
      assert Locate(n, p, r2) == Locate(c1, cp, r2[1..]);
      LocatePrefixDeterminesRoute(c1, cp, r1[1..], r2[1..]);
      assert r1 == [r1[0]] + r1[1..];
    }
  }
}

=== FILE: walk.dfy ===
/** The walk `find_packages(dir, results, recurse)`: it classifies every entry
    listed under `dir` (never `dir` itself), keeps the packages it finds, and
    descends into the directories classified `Recurse` when `recurse` is set. */
module Scanner {
  import opened Wrappers
  import opened Paths
  import opened Tree
  import opened Packages
  import opened Classify
  import opened Host

  /** The I/O error `read_dir` returns; it propagates out of the walk. */
  datatype ScanError = ReadDirFailed(path: Path)

  /** The entries the walk of node `n` at path `p` appends, or the error it stops with. */
  function Walk(n: Node, p: Path, recurse: bool, parse: Parser): Result<seq<Entry>, ScanError>
    decreases n, 1, 0
  {
    match n
    case File(_, _) => Success([])
    case Dir(_, readable, children) =>
      if !readable then Failure(ReadDirFailed(p))
      else WalkChildren(n, p, |children|, recurse, parse)
  }

  /** The same, over the first `k` entries of directory `n` only. */
  function WalkChildren(n: Node, p: Path, k: nat, recurse: bool, parse: Parser): Result<seq<Entry>, ScanError>
    requires n.Dir? && k <= |n.children|
    decreases n, 0, k
  {
    if k == 0 then Success([])
    else
      var prior :- WalkChildren(n, p, k - 1, recurse, parse);
      var c := n.children[k - 1];
      VisitChild(prior, c, ChildPath(p, c), recurse, parse)
  }

  /** One turn of the loop over a directory's entries: classify the entry
      `c` at `cp` and extend what the walk has `soFar`. */
  function VisitChild(soFar: seq<Entry>, c: Node, cp: Path, recurse: bool, parse: Parser): Result<seq<Entry>, ScanError>
    decreases c, 2, 0
  {
    match CheckPath(c, cp, parse)
    case Found(e) => Success(soFar + [e])
    case Recurse =>
      if recurse then
        var sub :- Walk(c, cp, recurse, parse);
        Success(soFar + sub)
      else Success(soFar)
    case _ => Success(soFar)
  }

  /** `results` after a walk that produced `w`: extended on success. */
  function Append(results: seq<Entry>, w: Result<seq<Entry>, ScanError>): Result<seq<Entry>, ScanError> {
    match w
    case Success(s) => Success(results + s)
    case Failure(e) => Failure(e)
  }

  /** A failure among the first `k` entries is the failure of the whole directory. */
  lemma {:induction false} FailurePersists(n: Node, p: Path, k: nat, m: nat, recurse: bool, parse: Parser)
    requires n.Dir? && k <= m <= |n.children|
    requires WalkChildren(n, p, k, recurse, parse).Failure?
    ensures WalkChildren(n, p, m, recurse, parse) == WalkChildren(n, p, k, recurse, parse)
    decreases m
  {
    if m > k {
      FailurePersists(n, p, k, m - 1, recurse, parse);
    }
  }

  /** Visiting an entry extends whatever was gathered before it the same way. */
  lemma VisitChildExtends(pre: seq<Entry>, soFar: seq<Entry>, c: Node, cp: Path, recurse: bool, parse: Parser)
    ensures VisitChild(pre + soFar, c, cp, recurse, parse) == Append(pre, VisitChild(soFar, c, cp, recurse, parse))
  {
    match CheckPath(c, cp, parse)
    case Found(e) =>
      assert pre + soFar + [e] == pre + (soFar + [e]);
    case Recurse =>
      if recurse && Walk(c, cp, recurse, parse).Success? {
        var sub := Walk(c, cp, recurse, parse).value;
        assert pre + soFar + sub == pre + (soFar + sub);
      }
    case _ =>
  }

  /** `find_packages` on an already-resolved node, as the source writes it: a
      loop over the directory's entries that pushes onto `results` and recurses. */
  method ScanDir(n: Node, p: Path, results: seq<Entry>, recurse: bool, parse: Parser)
    returns (r: Result<seq<Entry>, ScanError>)
    ensures r == Append(results, Walk(n, p, recurse, parse))
    ensures r.Success? ==> results <= r.value
    ensures !n.Dir? ==> r == Success(results)
    decreases n, 1
  {
    if !n.Dir? {
      assert results + [] == results;
      return Success(results);
    }
    if !n.readable {
      return Failure(ReadDirFailed(p));
    }
    var acc := results;
    var i := 0;
    assert acc[|results|..] == [];
    while i < |n.children|
      invariant i <= |n.children|
      invariant results <= acc
      invariant WalkChildren(n, p, i, recurse, parse) == Success(acc[|results|..])
    {
      var c := n.children[i];
      var cp := ChildPath(p, c);
      var step := VisitEntry(acc, c, cp, recurse, parse);
      assert acc == results + acc[|results|..];
      VisitChildExtends(results, acc[|results|..], c, cp, recurse, parse);
      assert step == Append(results, WalkChildren(n, p, i + 1, recurse, parse));
      if step.Failure? {
        FailurePersists(n, p, i + 1, |n.children|, recurse, parse);
        return step;
      }
      acc := step.value;
      assert acc[|results|..] == WalkChildren(n, p, i + 1, recurse, parse).value;
      i := i + 1;
    }
    assert Walk(n, p, recurse, parse) == WalkChildren(n, p, |n.children|, recurse, parse);
    assert acc == results + acc[|results|..];
    return Success(acc);
  }

  /** The body of the loop in `find_packages`: push a found package, or recurse
      into a plain directory when asked to. */
  method VisitEntry(acc: seq<Entry>, c: Node, cp: Path, recurse: bool, parse: Parser)
    returns (r: Result<seq<Entry>, ScanError>)
    ensures r == VisitChild(acc, c, cp, recurse, parse)
    decreases c, 2
  {
    var outcome := CheckPath(c, cp, parse);
    match outcome {
      case Found(e) =>
        r := Success(acc + [e]);
      case Recurse =>
        if recurse {
          r := ScanDir(c, cp, acc, recurse, parse);
        } else {
          r := Success(acc);
        }
      case _ =>
        r := Success(acc);
    }
  }

  /** What `find_packages(dir, …)` appends: nothing when `dir` is not a directory. */
  function Find(env: Env, dir: Path, recurse: bool): Result<seq<Entry>, ScanError> {
    match env.resolve(dir)
    case Some(n) => Walk(n, dir, recurse, env.parse)
    case None => Success([])
  }

  /** `find_packages(dir, results, recurse)`: it only ever appends to `results`,
      and leaves them as they were when `dir` is not a directory. */
  method FindPackages(env: Env, dir: Path, results: seq<Entry>, recurse: bool)
    returns (r: Result<seq<Entry>, ScanError>)
    ensures r == Append(results, Find(env, dir, recurse))
    ensures r.Success? ==> results <= r.value
    ensures !(env.resolve(dir).Some? && env.resolve(dir).value.Dir?) ==> r == Success(results)
  {
    var target := env.resolve(dir);
    match target {
      case None =>
        assert Find(env, dir, recurse) == Success([]);
        assert results + [] == results;
        r := Success(results);
      case Some(n) =>
        assert Find(env, dir, recurse) == Walk(n, dir, recurse, env.parse);
        r := ScanDir(n, dir, results, recurse, env.parse);
    }
  }
}

=== FILE: wrappers.dfy ===
/** Failure-carrying wrappers shared by the model: `Option` for lookups that may
    find nothing, `Result` for operations that can fail with an I/O error. Both
    support Dafny's `:-` elephant operator where that reads like Rust's `?`. */
module Wrappers {

  datatype Option<+T> = None | Some(value: T)

  datatype Result<+R, +E> = Success(value: R) | Failure(error: E) {

    predicate IsFailure() {
      Failure?
    }

    function PropagateFailure<U>(): Result<U, E>
      requires Failure?
    {
      Failure(error)
    }

    function Extract(): R
      requires Success?
    {
      value
    }
  }
}
